=== FILE: README.md ===
# BBH — Babel Browser Harness, modelled in Dafny

BBH (`bbh.js`) is a drop-in script that runs ES6+ code in the browser.
It builds a list of module entries: the user's `bbh.modules` followed by three
default modules (itself, Babel and RequireJS). It loads their scripts and
collects *registrations* (`bbh.register`). Each registration is a page loaded in
a hidden iframe. The host posts that page a message id. The page, started in
*registration mode* by the `#registration` hash, answers with its
`text/babel` scripts, serialised. The host turns them back into script
elements. Every load and every registration is turned into a value, either a
script or a caught error. If any value is an error, the harness logs the
errors and stops. Otherwise it maps the loaded globals to RequireJS modules,
reports leaked globals and transpiles the Babel scripts, naming anonymous ones
`__bbh_1`, `__bbh_2`, ….

The model is split into one module per concern:

- `Js` (js.dfy): the slice of JavaScript value semantics the harness relies
  on. It covers truthiness, `String(undefined)`, numerals, `Error` objects and
  `indexOf`/`lastIndexOf`.
- `Seqs` (seqs.dfy): `Array.prototype.filter` as an order-preserving
  selection.
- `Entries` (entries.dfy): `DEFAULT_MODULES`, `buildModuleEntries` and the
  list of script URLs.
- `Globals` (globals.dfy): `mapGlobal`'s normalisation, the choice of the
  exported global, the deletion of matched exports from `window` (which
  throws in strict mode for a key that cannot be deleted), the ignore list,
  and `detectLeaks`. `window` is the list of its own keys; each entry
  reads it as the entries before it left it.
- `Registrations` (registrations.dfy): `bbh.register`. The random message id
  is a parameter `gen`.
- `Scripts` (scripts.dfy): `serializeScript`, `deserializeScript`, the
  `data-name` of a loaded script, and module naming in `transpile`.
- `Handshake` (handshake.dfy): the host side of one registration, as a state
  machine over an explicit trace of browser events (iframe `load`, window
  `message`, timer). It is proved equal to a reference semantics read off
  the trace: the first load, the first matching message and the first timer
  event decide the outcome.
- `Responder` (responder.dfy): the registration-mode side, and the whole
  exchange end to end.
- `Settings` (settings.dfy): registration mode from the URL hash, and the two
  setters.
- `Pipeline` (pipeline.dfy): loading, aggregation of scripts and errors,
  and the halt-or-proceed decision of `mapAndTranspile`.

## Model

| member | source | states |
|---|---|---|
| Entries.KeyedEntries | bbh.js:397-398 | object-form configuration: one entry per key, in key order, named by its key, with every other field copied |
| Entries.BuildModuleEntries | bbh.js:392-402 | the entries are the user's (list form kept as is, object form named by key), followed by exactly the three default modules |
| Entries.Urls | bbh.js:186 | the URLs requested are the truthy `src` fields, in entry order; every truthy `src` is requested and nothing else is |
| Entries.UrlsAppend | bbh.js:186 | the URL list of concatenated entries is the concatenation of their URL lists |
| Entries.DefaultUrlsLast | bbh.js:22-37 | whatever is configured, the last two URLs requested are Babel's and RequireJS's, right after the user's own URLs |
| Globals.Normalize | bbh.js:408-414 | `exports` and `ignores` each become key lists (a list kept, a single key a one-element list, a falsy one an empty list); each flag is on when undefined, else when truthy |
| Globals.MapGlobal | bbh.js:415-441 | only a named entry defines a module; its export is the first listed key present on `window`, and none when no listed key is present; the entry's ignores are collected whether or not it is named |
| Globals.AfterMapGlobal | bbh.js:427-432 | an entry deletes from `window` exactly when it is named, `deleteFromWindow` is on and one of its exports was found; when no `delete` throws, it removes every listed export present and nothing else |
| Globals.MapGlobals | bbh.js:404-405 | one mapping per entry |
| Globals.MapGlobalsAt | bbh.js:404-441 | each entry is mapped against the keys on `window` as the entries before it left them |
| Globals.WindowAfterShrinks | bbh.js:427-432 | `mapGlobals` only deletes keys: a key not on `window` before is not on it after |
| Globals.UnexportedKeysStay | bbh.js:427-432 | a key no entry lists as an export is on `window` after `mapGlobals` exactly when it was before |
| Globals.DeletingEntryRemoves | bbh.js:413-432 | a named entry with `deleteFromWindow` on leaves none of its exports on `window`, whether it found them or an earlier entry had already deleted them |
| Globals.EarlierDeletionHides | bbh.js:415-432 | an export deleted by an earlier named entry is never the export of a later entry, which gets the dummy definition if it has no other export present |
| Globals.DeleteError | bbh.js:427-432 | a `delete` refused in strict mode (the file is `"use strict"`) throws a `TypeError` naming the first listed export that is present on `window` and cannot be deleted, since the `forEach` deletes the exports in list order and stops at the first refusal |
| Globals.FirstFixed | bbh.js:428-431 | the position reached by the deleting `forEach`: an export present and undeletable, with every export before it deletable or absent |
| Globals.StuckAt | bbh.js:404-432 | the entry at which `mapGlobals` throws, if any, is one of the entries |
| Globals.StuckAtFirst | bbh.js:404-432 | `mapGlobals` throws at the first entry that deletes while one of its present exports cannot be deleted, judged against the keys the entries before it left; no earlier entry throws |
| Globals.DeletableExportsNeverThrow | bbh.js:427-432 | when every listed export can be deleted, `mapGlobals` never throws |
| Globals.DefaultExportsNeverLeak | bbh.js:22-32 | whatever is configured, the default entries delete `bbh` and `Babel`, so neither is reported as a leak |
| Globals.GlobalIgnores | bbh.js:441 | the ignore list holds exactly the keys some entry ignores |
| Globals.Leaks | bbh.js:446 | a leak is a current `window` key that was neither present at start nor ignored; all such keys are reported, in `window` order |
| Globals.LeaksAsSets | bbh.js:446 | read as sets, the leaks are exactly the current keys minus the start keys minus the ignored keys |
| Globals.RequireJsGlobalsNeverLeak | bbh.js:31-35 | RequireJS's four default ignores are never reported as leaks, whatever is configured |
| Registrations.Register | bbh.js:219-230 | records already registered never change, and a `null` or `undefined` argument throws without pushing anything |
| Registrations.RegisterAppendsRecords | bbh.js:219-230 | `register` appends one record per options object, in order, however the arrays nest, up to the first `null` or `undefined` leaf; it throws exactly when there is such a leaf; existing records are unchanged; each record keeps `src`, takes a numeric `timeout` or 3000, and takes a truthy `messageId` or else a generated one |
| Registrations.RegisterEachAppendsRecords | bbh.js:220-223 | registering the items of an array appends the records of their options objects, in order, up to the first `null` or `undefined` one, and throws exactly when there is one |
| Registrations.MessageIdsTruthy | bbh.js:227 | every record's message id is non-empty, provided the generator never returns the empty string |
| Scripts.Serialize | bbh.js:374-388 | the descriptor has a name only if the attribute is truthy; it carries the `src` when that is truthy and otherwise `textContent`, never both |
| Scripts.Deserialize | bbh.js:333-349 | the element is a `text/babel` script carrying the descriptor's name and src exactly when they are truthy and no attribute otherwise, with empty text when there is a src and the `textContent` (empty when that is absent) when there is none, marked with the registration's `src` (`"undefined"` when absent) and with `data-remove` when module scripts are removed |
| Scripts.DescriptorRoundTrip | bbh.js:333-349 | deserialising and reserialising returns the descriptor exactly when it is one `serializeScript` can produce |
| Scripts.ElementRoundTrip | bbh.js:374-388 | a script's truthy name and src, and its text when it has no src, survive the trip from the page to the host |
| Scripts.DataName | bbh.js:190 | the `data-name` is the part of the URL after its last slash, except that a slash only at position 0 is ignored and the whole URL is kept |
| Scripts.GeneratedNamesDistinct | bbh.js:456 | different counter values give different `__bbh_` names |
| Scripts.ModuleNames | bbh.js:473 | each Babel script is named by its `name`, else its `src`, else `__bbh_k`, where k counts the anonymous scripts up to and including it; no two anonymous scripts share a name |
| Handshake.DeserializeAll | bbh.js:317-321 | a `scripts` array deserialises exactly when it holds no missing entry, and then element by element |
| Handshake.Payload | bbh.js:315-330 | an accepted message always settles its promise: a non-array `scripts` resolves to no scripts; an array without missing entries resolves to one deserialised element per entry, in order; an array with a missing entry rejects with the `TypeError` |
| Handshake.Verdict | bbh.js:300-312 | a reported error rejects with `<error> (<src>)` whatever the origin; otherwise an untrusted origin rejects with the cross-origin error; otherwise the payload decides; only the `TypeError` of a missing entry is a rejection other than a plain `Error` |
| Handshake.Receive | bbh.js:300-312 | a message with another id, or one arriving after the listener was removed, changes nothing; a matching one removes the iframe, removes the listener only when accepted, and settles a still-pending message promise with its verdict; nothing else changes |
| Handshake.Effect | bbh.js:256-291 | a load of the attached iframe posts the registration's id and resolves the load promise, and a load of a removed iframe does nothing; no other event posts; the timer firing rejects the timer promise unless it was cleared; no event settles the outcome directly |
| Handshake.RunMatchesReference | bbh.js:250-275 | on every event trace, the registration's outcome and timer are those of the reference semantics (first matching message, first load before it, first timer event) |
| Handshake.SettledOutcomeIsFinal | bbh.js:268-272 | once a registration has settled, no later event changes its outcome |
| Handshake.ResolvesIff | bbh.js:268-275 | a registration resolves exactly when the first matching message is accepted without a missing entry, the iframe loaded before it, and the timer had not fired; it then resolves with that message's scripts |
| Handshake.TimerForcesSettlement | bbh.js:256-259 | after the timer fires, the registration is no longer pending |
| Handshake.TimerFirstRejects | bbh.js:256-259 | a timer firing before any matching message rejects with `Registration didn't resolve: "<src>" (<timeout>ms)` |
| Handshake.RejectingMessageRejects | bbh.js:302-310 | a first matching message that rejects before the timer decides the outcome |
| Handshake.ForeignMessageChangesNothing | bbh.js:301 | a message with another id leaves the registration's state unchanged |
| Handshake.RegistrationsIsolated | bbh.js:301 | a response meant for one registration never affects another with a different id |
| Handshake.MatchingMessageCleanup | bbh.js:300-312 | a matching message always removes the iframe, removes the listener only when accepted, and settles a pending message promise with its verdict |
| Handshake.PostsOwnId | bbh.js:284-292 | only the registration's own id is ever posted, and something has been posted exactly when the load promise has resolved |
| Handshake.LoadThenAnswer | bbh.js:284-312 | load followed by a matching message posts the id once and settles with that message's verdict |
| Responder.SerializeAll | bbh.js:363 | one descriptor per script, in order |
| Responder.Respond | bbh.js:357-372 | a reply is sent exactly in registration mode to a message with `data` and a truthy id; it echoes the id and carries either the serialised Babel scripts (trusted origin) or the cross-origin error |
| Responder.Serve | bbh.js:354-372 | the listener answers at most once, and only the first message with `data`; messages without `data` throw before the listener is removed and are skipped |
| Responder.HandshakeEndToEnd | bbh.js:284-372 | a host registration and a registration-mode page: when both trust each other's origin, the registration resolves to the round trip of each of the page's Babel scripts, in order; otherwise it rejects with the cross-origin error |
| Settings.RegistrationModeFromSrc | bbh.js:149-163 | registration mode is on exactly when the script's `src` ends in `#registration` and holds no earlier `#` |
| Settings.Initial | bbh.js:47-55 | at start, cross-origin registration is refused and registration mode follows the script's hash |
| Settings.SetRegistrationMode | bbh.js:516 | the mode is switched off exactly by the boolean `false`; the other switch is kept |
| Settings.SetAllowCrossOrigin | bbh.js:517 | cross-origin acceptance is switched off exactly by the boolean `false`; the other switch is kept |
| Settings.SetterIgnoresTruthiness | bbh.js:516-517 | every truthy argument switches on, and so do the falsy ones other than `false` |
| Pipeline.NotAccessible | bbh.js:197-199 | a failed module script rejects with an `Error` naming its `data-name`, or the URL when that is empty |
| Pipeline.IsErrorRecognises | bbh.js:485-490 | as written, `isError` recognises every plain `Error` but not the `TypeError` of a missing entry, which the intended test recognises; scripts are never errors, and whatever it recognises the intended test recognises too |
| Pipeline.LoadOne | bbh.js:188-204 | a URL that loads gives its non-Babel script element with `src` and `data-name`; one that fails gives the caught error, which `isError` recognises |
| Pipeline.LoadExternal | bbh.js:185-211 | one result per URL, in URL order, each with the load outcome of that URL |
| Pipeline.Flatten | bbh.js:241-247 | the flattening of the settled registrations; its contents are stated by `FlattenKeeps` and `FlattenOrigin` |
| Pipeline.FlattenKeeps | bbh.js:241-247 | every script of a resolved registration and every rejection reason is in the flattened list |
| Pipeline.FlattenOrigin | bbh.js:241-247 | every item of the flattened list is a script of a resolved registration or the reason of a rejected one |
| Pipeline.FlattenAppend | bbh.js:244-246 | flattening keeps the registrations' order |
| Pipeline.FlattenFlags | bbh.js:241-247 | the flattened list holds a recognised error exactly when some registration rejected with one |
| Pipeline.GatherItems | bbh.js:92-100 | the pipeline waits exactly while some registration is pending; it then holds the module results followed by the registration results (with no registrations, the module results unchanged) |
| Pipeline.ExternalFlags | bbh.js:197-209 | the module results hold an error exactly when some module URL failed to load |
| Pipeline.ItemsFlags | bbh.js:92-106 | the collected results hold a recognised error exactly when a module failed or a registration rejected with a recognised error |
| Pipeline.MapAndTranspile | bbh.js:102-126 | the pipeline halts exactly when some result is an error, and reports all of them and only them; otherwise it rejects with a `TypeError` exactly when `mapGlobals` meets an export it cannot delete, and else proceeds with the results unchanged |
| Pipeline.LoadCycle | bbh.js:84-126 | the pipeline waits exactly while some registration is pending, and when it proceeds it maps every module entry |
| Pipeline.LoadCycleOutcome | bbh.js:84-126 | the pipeline waits while a registration is pending, then halts exactly when a module failed or a registration rejected with a recognised error; otherwise it rejects exactly when `mapGlobals` meets an export it cannot delete, and else proceeds with the ordered results, the mapping of every entry, and the leaks among the keys `mapGlobals` left on `window` |
| Pipeline.UndeletableExportFails | bbh.js:102-110 | a library whose export `MyLib` cannot be deleted makes the cycle reject with `Cannot delete property 'MyLib' of #<Window>`; leaks are never detected |
| Pipeline.StuckMapAndTranspile | bbh.js:102-110 | with no error among the results, a throwing `mapGlobals` rejects with the `TypeError` of the first entry that throws |
| Pipeline.DefaultGlobalsNotLeaked | bbh.js:109-110 | when the pipeline proceeds, `bbh` and `Babel` are not among the leaks, because `mapGlobals` deletes them before `detectLeaks` reads `window` |
| Pipeline.UnreachableModuleHalts | bbh.js:197-199 | a module script that fails to load always halts the pipeline |
| Pipeline.RejectionReasons | bbh.js:300-330 | a registration rejects only with a plain `Error`, or with the `TypeError` of a missing `scripts` entry |
| Pipeline.NullEntryRejects | bbh.js:315-330 | a response whose `scripts` array holds `null` rejects the registration with the `TypeError` |
| Pipeline.NullEntryDoesNotHalt | bbh.js:485-490 | as written, such a rejection does not halt the pipeline; unless `mapGlobals` throws, it proceeds with the `TypeError` among its results |
| Pipeline.IntendedHaltsIff | bbh.js:485-490 | with the intended `isError`, the pipeline halts exactly when a module failed or any registration rejected |

## Left out

- DOM work is not modelled. This covers creating, appending and removing
  elements and iframes, `removeRequestedElements`, `determineAppendTarget`
  and `addCommentLine`. Element attributes are fields of a datatype instead.
- Fetching, Babel's transform, RequireJS's `define`/`require`, and the
  wrap, build and run steps of `transpile` are left out. They are foreign
  code. Only the module names (`ModuleNames`) are modelled.
- `noConflict` and RequireJS's `define`/`require` calls in `mapGlobal` are
  left out. The mappings they would define are modelled, and so is the
  deletion of exports, on the list of `window`'s own keys. The values behind
  those keys are not modelled. The keys before `mapGlobals`, and which of
  them cannot be deleted, are inputs.
- Pipeline.MapAndTranspile: when a `delete` throws, the outcome carries only
  the `TypeError`. The modules the earlier entries already defined, and the
  keys they already deleted, are not reported.
- `generateRandomId` and `Math.random` become the parameter `gen`.
- Timers and the browser's event order become an explicit event trace per
  registration. It holds that registration's iframe load and timer event,
  and every window message.
- Logging (`console.debug`, `logStatus`, `logAndThrowError`) and
  `removeRegisterScripts`, which nothing reads, are left out.
- The `load`/`DOMContentLoaded` start-up, `importConfig` and
  `event.source.postMessage` addressing are left out.
- Responder.Respond: message ids that are not strings are not modelled. The
  modelled host posts only strings, because `Registration.messageId` is a
  string. A non-string truthy id would also get a reply.
- Registrations.RegisterAppendsRecords: a truthy `messageId` that is not a
  string is not modelled. A number or `true` is posted as is, echoed by the
  responder and matched by `===`, so such a registration resolves as a
  string one does. An object id is cloned on the way and never matches, so
  that registration would time out.
- On the host side, a message whose `data` is `null` or `undefined` is not
  modelled. Reading its `id` throws inside `onMessage` and changes nothing,
  as with a foreign message. The responder's side is modelled
  (`Responder.Serve`).
- Pipeline.LoadExternal: a module script that never fires `load` or `error`
  is not modelled. Each URL is either reachable or failing, and the pipeline
  would wait forever otherwise.
- Numbers are integers. Fractional, NaN and infinite `timeout` values are not
  modelled.
- A `null` or `undefined` `bbh.modules` is not modelled. It would throw in
  `buildModuleEntries`.
- Pipeline.NotAccessible: when the `data-name` is empty, the message uses the
  URL as configured, not the resolved `e.target.src`.
- Dependency ordering, weights and cycle errors do not exist in `bbh.js`,
  so they are not modelled.

## Findings

| source | as written | input that shows it | evidently intended | confidence | as-written member | corrected member |
|---|---|---|---|---|---|---|
| bbh.js:485-490 | `Object.prototype.toString(o)` calls `toString` on `Object.prototype` itself, so it always yields `"[object Object]"`. Only objects named `"Error"` count as errors. | A registration page answers `{ id, scripts: [null] }`. `deserializeScript(null)` throws a `TypeError`, and the registration rejects with it. `isError` does not recognise it, so the pipeline goes on as if that registration had no scripts. | `Object.prototype.toString.call(o)`, which recognises every error object, so that any rejected registration halts the pipeline | medium; not executed | Pipeline.NullEntryDoesNotHalt | Pipeline.IntendedHaltsIff |

=== FILE: entries.dfy ===
/** Building the list of module entries the harness loads (bbh.js:22-37,
    392-402) and the list of script URLs it requests (bbh.js:186). */
module Entries {
  import opened Js

  /** A configuration field that is either absent, a single key or a list of
      keys (`exports`, `ignores`). */
  datatype Keys = Absent | One(key: string) | Many(keys: seq<string>)

  /** One module entry as configured: its name, the URL of its script, the
      globals it exports and the globals to ignore, and the two flags that
      steer the (unmodelled) global clean-up. */
  datatype ModuleEntry = ModuleEntry(
    name: Option<string>,
    src: Option<string>,
    exports: Keys,
    ignores: Keys,
    callNoConflict: Value,
    deleteFromWindow: Value)

  /** `bbh.modules`: an array of entries, or an object whose own keys, in
      `Object.keys` order, map to entries. */
  datatype ModulesConfig =
    | ListForm(entries: seq<ModuleEntry>)
    | KeyedForm(props: seq<(string, ModuleEntry)>)

  const BABEL_URL := "https://cdnjs.cloudflare.com/ajax/libs/babel-standalone/6.7.7/babel.min.js"
  const REQUIREJS_URL := "https://cdnjs.cloudflare.com/ajax/libs/require.js/2.2.0/require.min.js"

  /** A configured entry with only the given fields set. */
  function Entry(name: string, src: Option<string>, exports: Keys, ignores: Keys): ModuleEntry
  {
    ModuleEntry(Some(name), src, exports, ignores, Undefined, Undefined)
  }

  /** The three modules the harness always appends: itself, Babel and RequireJS. */
  const DEFAULT_MODULES: seq<ModuleEntry> := [
    Entry("bbh", None, One("bbh"), Absent),
    Entry("babel", Some(BABEL_URL), One("Babel"), Absent),
    Entry("requirejs", Some(REQUIREJS_URL), Absent,
          Many(["__core-js_shared__", "requirejs", "require", "define"]))
  ]

  /** The entries of the object form, each given its key as `name`
      (`Object.assign({}, value, { name: key })`). */
  function KeyedEntries(props: seq<(string, ModuleEntry)>): (r: seq<ModuleEntry>)
    ensures |r| == |props|
    ensures forall i :: 0 <= i < |r| ==> r[i].name == Some(props[i].0)
    ensures forall i :: 0 <= i < |r| ==>
      r[i].src == props[i].1.src && r[i].exports == props[i].1.exports &&
      r[i].ignores == props[i].1.ignores &&
      r[i].callNoConflict == props[i].1.callNoConflict &&
      r[i].deleteFromWindow == props[i].1.deleteFromWindow
  {
    if props == [] then []
    else [props[0].1.(name := Some(props[0].0))] + KeyedEntries(props[1..])
  }

  /** The user's entries, in configuration order. */
  function UserEntries(cfg: ModulesConfig): seq<ModuleEntry>
  {
    match cfg
    case ListForm(entries) => entries
    case KeyedForm(props) => KeyedEntries(props)
  }

  /** `buildModuleEntries`: the user's entries followed by the defaults. */
  function BuildModuleEntries(cfg: ModulesConfig): (r: seq<ModuleEntry>)
    ensures |r| == |UserEntries(cfg)| + 3
    ensures r[|r| - 3..] == DEFAULT_MODULES
    ensures cfg.ListForm? ==> r[..|cfg.entries|] == cfg.entries
    ensures cfg.KeyedForm? ==>
              |r| == |cfg.props| + 3 &&
              forall i :: 0 <= i < |cfg.props| ==>
                r[i] == cfg.props[i].1.(name := Some(cfg.props[i].0))
  {
    UserEntries(cfg) + DEFAULT_MODULES
  }

  /** `moduleEntries.map(_ => _.src).filter(Boolean)`: the script URLs to
      request, in entry order. */
  function Urls(entries: seq<ModuleEntry>): (r: seq<string>)
    ensures |r| <= |entries|
    ensures forall i :: 0 <= i < |entries| && Present(entries[i].src) ==> entries[i].src.value in r
    ensures forall u :: u in r ==> u != "" && exists i :: 0 <= i < |entries| && entries[i].src == Some(u)
  {
    if entries == [] then []
    else if Present(entries[0].src) then
      var rest := Urls(entries[1..]);
      assert forall u :: u in rest ==> exists i :: 0 <= i < |entries| && entries[i].src == Some(u) by {
        forall u | u in rest ensures exists i :: 0 <= i < |entries| && entries[i].src == Some(u) {
          var j :| 0 <= j < |entries[1..]| && entries[1..][j].src == Some(u);
          assert entries[j + 1].src == Some(u);
        }
      }
      [entries[0].src.value] + rest
    else
      var rest := Urls(entries[1..]);
      assert forall u :: u in rest ==> exists i :: 0 <= i < |entries| && entries[i].src == Some(u) by {
        forall u | u in rest ensures exists i :: 0 <= i < |entries| && entries[i].src == Some(u) {
          var j :| 0 <= j < |entries[1..]| && entries[1..][j].src == Some(u);
          assert entries[j + 1].src == Some(u);
        }
      }
      rest
  }

  /** The URL list of a concatenation is the concatenation of the URL lists. */
  lemma {:induction false} UrlsAppend(a: seq<ModuleEntry>, b: seq<ModuleEntry>)
    ensures Urls(a + b) == Urls(a) + Urls(b)
  {
    if a == [] {
      assert a + b == b;
    } else {
      assert (a + b)[0] == a[0];
      assert (a + b)[1..] == a[1..] + b;
      UrlsAppend(a[1..], b);
    }
  }

  /** Whatever the user configures, the last two URLs requested are Babel's
      and RequireJS's, after exactly the URLs of the user's own entries. */
  lemma DefaultUrlsLast(cfg: ModulesConfig)
    ensures Urls(BuildModuleEntries(cfg)) == Urls(UserEntries(cfg)) + [BABEL_URL, REQUIREJS_URL]
  {
    UrlsAppend(UserEntries(cfg), DEFAULT_MODULES);
    var d := DEFAULT_MODULES;
    assert d[1..][1..][1..] == [];
    assert Urls(d[1..][1..]) == [REQUIREJS_URL];
    assert Urls(d[1..]) == [BABEL_URL, REQUIREJS_URL];
    assert Urls(d) == [BABEL_URL, REQUIREJS_URL];
  }
}

=== FILE: globals.dfy ===
/** `mapGlobals` (bbh.js:404-443) and `detectLeaks` (bbh.js:445-450):
    normalising an entry, choosing the global it exports, deleting the
    exports of matched entries from `window` (which throws for a key that
    cannot be deleted), collecting the ignored keys, and the leak filter. `window` is modelled by the list of its own keys;
    the values behind them, `noConflict` and RequireJS are not modelled. */
module Globals {
  import opened Js
  import opened Entries
  import Seqs

  /** `[].concat(keys || [])`: an empty single key is falsy and contributes nothing. */
  function KeyList(k: Keys): seq<string>
  {
    match k
    case Absent => []
    case One(key) => if key == "" then [] else [key]
    case Many(keys) => keys
  }

  /** `typeof v === 'undefined' || !!v`. */
  predicate Flag(v: Value)
  {
    v == Undefined || Truthy(v)
  }

  /** An entry after `mapGlobal`'s normalisation (bbh.js:408-414). */
  datatype Normalized = Normalized(
    name: Option<string>,
    exports: seq<string>,
    ignores: seq<string>,
    callNoConflict: bool,
    deleteFromWindow: bool)

  function Normalize(e: ModuleEntry): (n: Normalized)
    ensures n.name == e.name
    ensures e.exports.Many? ==> n.exports == e.exports.keys
    ensures e.exports.One? ==> n.exports == (if e.exports.key == "" then [] else [e.exports.key])
    ensures e.exports.Absent? ==> n.exports == []
    ensures e.ignores.Many? ==> n.ignores == e.ignores.keys
    ensures e.ignores.One? ==> n.ignores == (if e.ignores.key == "" then [] else [e.ignores.key])
    ensures e.ignores.Absent? ==> n.ignores == []
    ensures e.callNoConflict == Undefined ==> n.callNoConflict
    ensures e.deleteFromWindow == Undefined ==> n.deleteFromWindow
    ensures e.callNoConflict != Undefined ==> (n.callNoConflict <==> Truthy(e.callNoConflict))
    ensures e.deleteFromWindow != Undefined ==> (n.deleteFromWindow <==> Truthy(e.deleteFromWindow))
  {
    Normalized(e.name, KeyList(e.exports), KeyList(e.ignores),
               Flag(e.callNoConflict), Flag(e.deleteFromWindow))
  }

  /** What `mapGlobal` does for one entry: the RequireJS module it defines
      (only for a named entry), the global key whose value that module
      exports (the first listed export present on `window`; none means the
      dummy `null` definition), and the keys it adds to the ignore list. */
  datatype Mapping = Mapping(defines: Option<string>, exported: Option<string>, ignores: seq<string>)

  /** `window.hasOwnProperty(k)`, where `window` is the list of the own keys
      of `window`, in `Object.keys` order. */
  predicate OnWindow(window: seq<string>, k: string)
  {
    k in window
  }

  /** `mapGlobal` for one entry, reading the keys on `window` as they are
      when its turn comes. */
  function MapGlobal(e: ModuleEntry, window: seq<string>): (m: Mapping)
    ensures m.defines.Some? <==> Present(e.name)
    ensures m.defines.Some? ==> m.defines == e.name
    ensures m.exported.Some? ==> m.defines.Some?
    ensures m.exported.Some? ==>
              exists i :: 0 <= i < |Normalize(e).exports| &&
                Normalize(e).exports[i] == m.exported.value && m.exported.value in window &&
                forall j :: 0 <= j < i ==> Normalize(e).exports[j] !in window
    ensures Present(e.name) && m.exported.None? ==>
              forall i :: 0 <= i < |Normalize(e).exports| ==> Normalize(e).exports[i] !in window
    ensures m.ignores == Normalize(e).ignores
  {
    var n := Normalize(e);
    var matched := Seqs.Filter(n.exports, k => OnWindow(window, k));
    if !Present(n.name) then Mapping(None, None, n.ignores)
    else if matched != [] then
      Seqs.FilterHead(n.exports, k => OnWindow(window, k));
      Mapping(n.name, Some(matched[0]), n.ignores)
    else
      Mapping(n.name, None, n.ignores)
  }

  /** `mapGlobal` deletes the entry's exports from `window`: the entry is
      named, `deleteFromWindow` is on, and one of its exports is present. */
  predicate Deletes(e: ModuleEntry, window: seq<string>)
  {
    && Present(e.name)
    && Normalize(e).deleteFromWindow
    && exists i :: 0 <= i < |Normalize(e).exports| && Normalize(e).exports[i] in window
  }

  /** The keys left on `window` after `mapGlobal` has run for one entry:
      when it deletes, every listed export present is gone, and nothing
      else changes. */
  function AfterMapGlobal(e: ModuleEntry, window: seq<string>): (r: seq<string>)
    ensures forall k :: k in r <==> k in window && !(Deletes(e, window) && k in Normalize(e).exports)
    ensures Deletes(e, window) <==> MapGlobal(e, window).exported.Some? && Normalize(e).deleteFromWindow
  {
    if Deletes(e, window) then Seqs.Filter(window, k => k !in Normalize(e).exports) else window
  }

  /** The keys on `window` after `mapGlobal` has run for each of `entries`,
      in order. */
  function WindowAfter(entries: seq<ModuleEntry>, window: seq<string>): seq<string>
    decreases |entries|
  {
    if entries == [] then window
    else WindowAfter(entries[1..], AfterMapGlobal(entries[0], window))
  }

  /** `moduleEntries.forEach(mapGlobal)`: one mapping per entry, in order,
      each entry seeing `window` as the entries before it left it. */
  function MapGlobals(entries: seq<ModuleEntry>, window: seq<string>): (ms: seq<Mapping>)
    ensures |ms| == |entries|
    decreases |entries|
  {
    if entries == [] then []
    else [MapGlobal(entries[0], window)] + MapGlobals(entries[1..], AfterMapGlobal(entries[0], window))
  }

  /** Entry `i` is mapped against the keys the entries before it left. */
  lemma {:induction false} MapGlobalsAt(entries: seq<ModuleEntry>, window: seq<string>, i: nat)
    requires i < |entries|
    ensures MapGlobals(entries, window)[i] == MapGlobal(entries[i], WindowAfter(entries[..i], window))
    decreases i
  {
    if i == 0 {
      assert entries[..0] == [];
    } else {
      var rest := AfterMapGlobal(entries[0], window);
      MapGlobalsAt(entries[1..], rest, i - 1);
      assert entries[1..][i - 1] == entries[i];
      assert entries[..i][0] == entries[0];
      assert entries[..i][1..] == entries[1..][..i - 1];
    }
  }

  lemma {:induction false} WindowAfterAppend(a: seq<ModuleEntry>, b: seq<ModuleEntry>, window: seq<string>)
    ensures WindowAfter(a + b, window) == WindowAfter(b, WindowAfter(a, window))
    decreases |a|
  {
    if a == [] {
      assert a + b == b;
    } else {
      assert (a + b)[0] == a[0];
      assert (a + b)[1..] == a[1..] + b;
      WindowAfterAppend(a[1..], b, AfterMapGlobal(a[0], window));
    }
  }

  /** `mapGlobals` only deletes keys: a key absent from `window` stays absent. */
  lemma {:induction false} WindowAfterShrinks(entries: seq<ModuleEntry>, window: seq<string>, k: string)
    requires k !in window
    ensures k !in WindowAfter(entries, window)
    decreases |entries|
  {
    if entries != [] {
      WindowAfterShrinks(entries[1..], AfterMapGlobal(entries[0], window), k);
    }
  }

  /** A key that no entry lists as an export survives `mapGlobals`. */
  lemma {:induction false} UnexportedKeysStay(entries: seq<ModuleEntry>, window: seq<string>, k: string)
    requires forall i :: 0 <= i < |entries| ==> k !in Normalize(entries[i]).exports
    ensures k in WindowAfter(entries, window) <==> k in window
    decreases |entries|
  {
    if entries != [] {
      assert k !in Normalize(entries[0]).exports;
      assert forall i :: 0 <= i < |entries[1..]| ==> entries[1..][i] == entries[i + 1];
      UnexportedKeysStay(entries[1..], AfterMapGlobal(entries[0], window), k);
    }
  }

  /** A named entry with `deleteFromWindow` on removes every one of its
      exports from `window`: either it was present when the entry's turn
      came, and the entry deleted it, or it was already gone. */
  lemma DeletingEntryRemoves(entries: seq<ModuleEntry>, window: seq<string>, j: nat, k: string)
    requires j < |entries| && Present(entries[j].name) && Normalize(entries[j]).deleteFromWindow
    requires k in Normalize(entries[j]).exports
    ensures k !in WindowAfter(entries, window)
  {
    var before := WindowAfter(entries[..j], window);
    assert entries == entries[..j] + ([entries[j]] + entries[j + 1..]);
    WindowAfterAppend(entries[..j], [entries[j]] + entries[j + 1..], window);
    assert ([entries[j]] + entries[j + 1..])[1..] == entries[j + 1..];
    var after := AfterMapGlobal(entries[j], before);
    assert k !in after by {
      if k in before {
        var i :| 0 <= i < |Normalize(entries[j]).exports| && Normalize(entries[j]).exports[i] == k;
        assert Deletes(entries[j], before);
      }
    }
    WindowAfterShrinks(entries[j + 1..], after, k);
  }

  /** An export deleted by an earlier entry is hidden from every later one:
      two named entries that both export `k` cannot both find it, unless
      the first keeps it with `deleteFromWindow: false`. */
  lemma EarlierDeletionHides(entries: seq<ModuleEntry>, window: seq<string>, j: nat, i: nat, k: string)
    requires j < i < |entries| && Present(entries[j].name) && Normalize(entries[j]).deleteFromWindow
    requires k in Normalize(entries[j]).exports
    ensures MapGlobals(entries, window)[i].exported != Some(k)
  {
    MapGlobalsAt(entries, window, i);
    assert entries[..i][j] == entries[j];
    DeletingEntryRemoves(entries[..i], window, j, k);
  }

  /** In strict mode `delete window[k]` throws a `TypeError` when the own
      property `k` cannot be deleted, as for a global declared with `var` or
      a function declaration in a classic script. `fixed` holds those keys.
      `mapGlobal` throws for `e` when it deletes and one of its exports
      present on `window` is fixed. */
  predicate Throws(e: ModuleEntry, window: seq<string>, fixed: set<string>)
  {
    && Deletes(e, window)
    && exists i :: 0 <= i < |Normalize(e).exports| && Normalize(e).exports[i] in window && Normalize(e).exports[i] in fixed
  }

  /** V8's message for a `delete` of `window[k]` that strict mode refuses. */
  function DeleteMessage(k: string): string
  {
    "Cannot delete property '" + k + "' of #<Window>"
  }

  /** The position of the first key of `ks` that is on `window` and fixed:
      the key at which a `forEach` of deletions throws. */
  function FirstFixed(ks: seq<string>, window: seq<string>, fixed: set<string>): (i: nat)
    requires exists i :: 0 <= i < |ks| && ks[i] in window && ks[i] in fixed
    ensures i < |ks| && ks[i] in window && ks[i] in fixed
    ensures forall j :: 0 <= j < i ==> !(ks[j] in window && ks[j] in fixed)
  {
    if ks[0] in window && ks[0] in fixed then 0
    else
      var i :| 0 <= i < |ks| && ks[i] in window && ks[i] in fixed;
      assert ks[1..][i - 1] == ks[i];
      1 + FirstFixed(ks[1..], window, fixed)
  }

  /** The `TypeError` of the failed `delete`: it names the first listed
      export that is present and fixed (the exports before it are deleted).
      */
  function DeleteError(e: ModuleEntry, window: seq<string>, fixed: set<string>): (err: Error)
    requires Throws(e, window, fixed)
    ensures err.name == "TypeError"
    ensures exists i :: 0 <= i < |Normalize(e).exports| &&
              Normalize(e).exports[i] in window && Normalize(e).exports[i] in fixed &&
              err.message == DeleteMessage(Normalize(e).exports[i]) &&
              forall j :: 0 <= j < i ==> !(Normalize(e).exports[j] in window && Normalize(e).exports[j] in fixed)
  {
    var i := FirstFixed(Normalize(e).exports, window, fixed);
    Error("TypeError", DeleteMessage(Normalize(e).exports[i]))
  }

  /** The position of the entry whose `mapGlobal` throws, if any:
      `forEach` stops there, and the entries after it are never mapped. */
  function StuckAt(entries: seq<ModuleEntry>, window: seq<string>, fixed: set<string>): (r: Option<nat>)
    ensures r.Some? ==> r.value < |entries|
    decreases |entries|
  {
    if entries == [] then None
    else if Throws(entries[0], window, fixed) then Some(0)
    else
      match StuckAt(entries[1..], AfterMapGlobal(entries[0], window), fixed)
      case None => None
      case Some(j) => Some(j + 1)
  }

  /** The keys the first `i + 1` entries leave, read through the first entry. */
  lemma WindowAfterPrefix(entries: seq<ModuleEntry>, window: seq<string>, i: nat)
    requires 0 < i <= |entries|
    ensures WindowAfter(entries[..i], window) == WindowAfter(entries[1..][..i - 1], AfterMapGlobal(entries[0], window))
  {
    assert entries[..i][0] == entries[0];
    assert entries[..i][1..] == entries[1..][..i - 1];
  }

  /** `StuckAt` finds the first entry that throws, against the keys the
      entries before it left, and no entry before it throws. */
  lemma {:induction false} StuckAtFirst(entries: seq<ModuleEntry>, window: seq<string>, fixed: set<string>)
    ensures var r := StuckAt(entries, window, fixed);
            r.Some? ==> Throws(entries[r.value], WindowAfter(entries[..r.value], window), fixed)
    ensures var r := StuckAt(entries, window, fixed);
            forall i :: 0 <= i < |entries| && (r.None? || i < r.value) ==>
              !Throws(entries[i], WindowAfter(entries[..i], window), fixed)
    decreases |entries|
  {
    if entries != [] {
      var r := StuckAt(entries, window, fixed);
      assert entries[..0] == [];
      if !Throws(entries[0], window, fixed) {
        var rest := AfterMapGlobal(entries[0], window);
        StuckAtFirst(entries[1..], rest, fixed);
        if r.Some? {
          WindowAfterPrefix(entries, window, r.value);
          assert entries[1..][r.value - 1] == entries[r.value];
        }
        forall i | 0 < i < |entries| && (r.None? || i < r.value)
          ensures !Throws(entries[i], WindowAfter(entries[..i], window), fixed)
        {
          WindowAfterPrefix(entries, window, i);
          assert entries[1..][i - 1] == entries[i];
        }
      }
    }
  }

  /** When no entry lists a fixed key as an export, `mapGlobals` never throws. */
  lemma {:induction false} DeletableExportsNeverThrow(entries: seq<ModuleEntry>, window: seq<string>, fixed: set<string>)
    requires forall i, k :: 0 <= i < |entries| && k in Normalize(entries[i]).exports ==> k !in fixed
    ensures StuckAt(entries, window, fixed).None?
    decreases |entries|
  {
    if entries != [] {
      assert !Throws(entries[0], window, fixed);
      assert forall i :: 0 <= i < |entries[1..]| ==> entries[1..][i] == entries[i + 1];
      DeletableExportsNeverThrow(entries[1..], AfterMapGlobal(entries[0], window), fixed);
    }
  }

  /** `globalIgnores` after `mapGlobals`: every entry's ignores, in entry order,
      whether or not the entry is named. */
  function GlobalIgnores(entries: seq<ModuleEntry>): (r: seq<string>)
    ensures forall i, k :: 0 <= i < |entries| && k in KeyList(entries[i].ignores) ==> k in r
    ensures forall k :: k in r ==> exists i :: 0 <= i < |entries| && k in KeyList(entries[i].ignores)
  {
    if entries == [] then []
    else
      var rest := GlobalIgnores(entries[1..]);
      assert forall k :: k in rest ==> exists i :: 0 <= i < |entries| && k in KeyList(entries[i].ignores) by {
        forall k | k in rest ensures exists i :: 0 <= i < |entries| && k in KeyList(entries[i].ignores) {
          var j :| 0 <= j < |entries[1..]| && k in KeyList(entries[1..][j].ignores);
          assert entries[j + 1] == entries[1..][j];
        }
      }
      KeyList(entries[0].ignores) + rest
  }

  /** `detectLeaks`: the keys on `window` now that were neither there at start
      nor ignored, in their current order. */
  function Leaks(now: seq<string>, start: seq<string>, ignores: seq<string>): (r: seq<string>)
    ensures forall i :: 0 <= i < |r| ==> r[i] in now && r[i] !in start && r[i] !in ignores
    ensures forall i :: 0 <= i < |now| && now[i] !in start && now[i] !in ignores ==> now[i] in r
    ensures Seqs.IsSubsequence(r, now)
  {
    Seqs.Filter(now, k => k !in start + ignores)
  }

  /** The leak report, read as sets: exactly the new, unignored keys. */
  lemma LeaksAsSets(now: seq<string>, start: seq<string>, ignores: seq<string>)
    ensures (set k | k in Leaks(now, start, ignores)) ==
            (set k | k in now) - (set k | k in start) - (set k | k in ignores)
  {
    var r := Leaks(now, start, ignores);
    forall k | k in now && k !in start && k !in ignores ensures k in r {
      var i :| 0 <= i < |now| && now[i] == k;
    }
    forall k | k in r ensures k in now && k !in start && k !in ignores {
      var i :| 0 <= i < |r| && r[i] == k;
    }
  }

  /** The ignores RequireJS declares by default are never reported as leaks. */
  lemma RequireJsGlobalsNeverLeak(cfg: ModulesConfig, now: seq<string>, start: seq<string>)
    ensures var entries := BuildModuleEntries(cfg);
            forall k :: k in ["__core-js_shared__", "requirejs", "require", "define"] ==>
              k !in Leaks(now, start, GlobalIgnores(entries))
  {
    var entries := BuildModuleEntries(cfg);
    var last := |entries| - 1;
    assert entries[last] == DEFAULT_MODULES[2];
    assert KeyList(entries[last].ignores) == ["__core-js_shared__", "requirejs", "require", "define"];
  }

  /** Whatever is configured, the harness's own `bbh` global and Babel's
      `Babel` global are deleted by their default entries before leaks are
      detected, so neither is ever reported as a leak. */
  lemma DefaultExportsNeverLeak(cfg: ModulesConfig, now: seq<string>, start: seq<string>)
    ensures var entries := BuildModuleEntries(cfg);
            var leaks := Leaks(WindowAfter(entries, now), start, GlobalIgnores(entries));
            "bbh" !in leaks && "Babel" !in leaks
  {
    var entries := BuildModuleEntries(cfg);
    var n := |entries|;
    assert entries[n - 3] == entries[n - 3..][0] == DEFAULT_MODULES[0];
    assert entries[n - 2] == entries[n - 3..][1] == DEFAULT_MODULES[1];
    assert "bbh" in Normalize(entries[n - 3]).exports;
    assert "Babel" in Normalize(entries[n - 2]).exports;
    DeletingEntryRemoves(entries, now, n - 3, "bbh");
    DeletingEntryRemoves(entries, now, n - 2, "Babel");
  }
}

=== FILE: handshake.dfy ===
/** The host side of one registration (`loadRegistration`,
    `listenForIframeLoad`, `listenForWindowMessage`; bbh.js:250-351) as a
    state machine over an explicit trace of the events the browser delivers:
    the iframe's `load`, an inbound `message`, and the timer firing.

    The outcome is `Promise.all([message, load, timer])`: it settles at the
    first rejection among the three, or fulfils with the message's scripts
    once all three have resolved; the timer promise resolves (and the timer
    is cleared) as soon as both the message and the load promise have. */
module Handshake {
  import opened Js
  import opened Scripts
  import opened Registrations

  const CROSS_ORIGIN_REGISTRATION_ERROR := "Cross-origin registration rejected"

  /** What `deserializeScript` throws when a `scripts` entry is `null` or
      `undefined`: a `TypeError`. The message text is V8's for `null`; for
      `undefined` it reads "of undefined" instead. One constant stands for
      both, since only the name matters to `isError`. */
  const NULL_ENTRY_ERROR := Error("TypeError", "Cannot read properties of null (reading 'name')")

  /** The `scripts` field of an inbound message: an array, or anything else. */
  datatype ScriptsField = NotAnArray | ArrayOf(items: seq<Wire>)

  /** An inbound `message` event: `event.data.id` (`None` when it is not a
      string), `event.data.error`, `event.data.scripts` and `event.origin`. */
  datatype Message = Message(id: Option<string>, error: Option<string>, scripts: ScriptsField, origin: string)

  datatype Event = IframeLoad | Inbound(message: Message) | TimerFired

  /** A promise's state; a fulfilled registration carries its script elements. */
  datatype Settlement = Pending | Fulfilled(scripts: seq<Element>) | Rejected(reason: Error)

  /** The timer promise: pending while the timer runs, resolved once cleared,
      rejected once fired. */
  datatype Timer = Running | Cleared | Fired

  /** The host page's settings: `document.origin`, whether cross-origin
      registration is allowed, and `removeModuleScripts`. */
  datatype Context = Context(hostOrigin: string, allowCrossOrigin: bool, removeModuleScripts: bool)

  /** Everything one registration keeps: whether its message listener is
      still attached, whether its iframe is still in the document, the ids it
      has posted to the iframe, and its four promises. */
  datatype State = State(
    listening: bool,
    iframeAttached: bool,
    posted: seq<string>,
    message: Settlement,
    loaded: bool,
    timer: Timer,
    outcome: Settlement)

  function TimeoutError(reg: Registration): Error
  {
    NewError("Registration didn't resolve: \"" + Show(reg.src) + "\" (" + NumberToString(reg.timeout) + "ms)")
  }

  function CrossOriginError(reg: Registration): Error
  {
    NewError(CROSS_ORIGIN_REGISTRATION_ERROR + " (" + Show(reg.src) + ")")
  }

  /** `scripts.map(deserializeScript)`, which throws at a missing entry. */
  function DeserializeAll(ws: seq<Wire>, src: Option<string>, remove: bool): (r: Option<seq<Element>>)
    ensures r.Some? <==> forall i :: 0 <= i < |ws| ==> ws[i].Sent?
    ensures r.Some? ==> |r.value| == |ws|
    ensures r.Some? ==> forall i :: 0 <= i < |ws| ==> r.value[i] == Deserialize(ws[i].descriptor, src, remove)
  {
    if ws == [] then Some([])
    else if ws[0].Missing? then None
    else
      var rest := DeserializeAll(ws[1..], src, remove);
      if rest.None? then None
      else
        assert forall i :: 1 <= i < |ws| ==> ws[i] == ws[1..][i - 1];
        Some([Deserialize(ws[0].descriptor, src, remove)] + rest.value)
  }

  /** `processMessageData`: an array of scripts resolves to their elements,
      anything else to no scripts, and a throw inside becomes a rejection. */
  function Payload(scripts: ScriptsField, reg: Registration, ctx: Context): (s: Settlement)
    ensures !s.Pending?
    ensures scripts.NotAnArray? ==> s == Fulfilled([])
    ensures scripts.ArrayOf? && (forall i :: 0 <= i < |scripts.items| ==> scripts.items[i].Sent?) ==>
              && s.Fulfilled?
              && |s.scripts| == |scripts.items|
              && forall i :: 0 <= i < |scripts.items| ==>
                   s.scripts[i] == Deserialize(scripts.items[i].descriptor, reg.src, ctx.removeModuleScripts)
    ensures scripts.ArrayOf? && (exists i :: 0 <= i < |scripts.items| && scripts.items[i].Missing?) ==>
              s == Rejected(NULL_ENTRY_ERROR)
  {
    match scripts
    case NotAnArray => Fulfilled([])
    case ArrayOf(ws) =>
      var els := DeserializeAll(ws, reg.src, ctx.removeModuleScripts);
      if els.Some? then Fulfilled(els.value) else Rejected(NULL_ENTRY_ERROR)
  }

  predicate Matches(m: Message, reg: Registration)
  {
    m.id == Some(reg.messageId)
  }

  /** `event.origin === document.origin || allowCrossOriginRegistration`. */
  predicate Trusted(m: Message, ctx: Context)
  {
    m.origin == ctx.hostOrigin || ctx.allowCrossOrigin
  }

  /** The branch of `onMessage` taken for a matching message: a reported error
      first, then the origin check. */
  predicate Accepted(m: Message, ctx: Context)
  {
    !Present(m.error) && Trusted(m, ctx)
  }

  /** How a matching message settles the message promise. */
  function Verdict(m: Message, reg: Registration, ctx: Context): (s: Settlement)
    ensures !s.Pending?
    ensures Present(m.error) ==> s == Rejected(NewError(m.error.value + " (" + Show(reg.src) + ")"))
    ensures !Present(m.error) && !Trusted(m, ctx) ==> s == Rejected(CrossOriginError(reg))
    ensures Accepted(m, ctx) ==> s == Payload(m.scripts, reg, ctx)
    ensures s.Rejected? && s.reason.name != "Error" ==> Accepted(m, ctx) && s.reason == NULL_ENTRY_ERROR
  {
    if Present(m.error) then Rejected(NewError(m.error.value + " (" + Show(reg.src) + ")"))
    else if Trusted(m, ctx) then Payload(m.scripts, reg, ctx)
    else Rejected(CrossOriginError(reg))
  }

  /** Resolving or rejecting a promise that has already settled does nothing. */
  function Settle(current: Settlement, next: Settlement): Settlement
  {
    if current.Pending? then next else current
  }

  /** `onMessage`: a foreign id, or a listener already removed, changes
      nothing; a matching message removes the iframe, and the listener only
      when it is accepted. */
  function Receive(s: State, m: Message, reg: Registration, ctx: Context): (s': State)
    ensures !s.listening || !Matches(m, reg) ==> s' == s
    ensures s.listening && Matches(m, reg) ==>
              && !s'.iframeAttached
              && (s'.listening <==> !Accepted(m, ctx))
              && (s.message.Pending? ==> s'.message == Verdict(m, reg, ctx))
              && (!s.message.Pending? ==> s'.message == s.message)
    ensures s'.posted == s.posted && s'.loaded == s.loaded && s'.timer == s.timer && s'.outcome == s.outcome
  {
    if !s.listening || !Matches(m, reg) then s
    else if Accepted(m, ctx) then
      s.(listening := false, iframeAttached := false, message := Settle(s.message, Verdict(m, reg, ctx)))
    else
      s.(iframeAttached := false, message := Settle(s.message, Verdict(m, reg, ctx)))
  }

  /** The direct effect of one event. A `load` of an iframe already removed
      finds no `contentWindow`, so `postMessage` throws before `resolve()`. */
  function Effect(s: State, e: Event, reg: Registration, ctx: Context): (s': State)
    ensures e.IframeLoad? ==>
              && (s.iframeAttached ==> s'.posted == s.posted + [reg.messageId] && s'.loaded)
              && (!s.iframeAttached ==> s' == s)
    ensures !e.IframeLoad? ==> s'.posted == s.posted && s'.loaded == s.loaded
    ensures e.TimerFired? ==> (s'.timer.Fired? <==> s.timer.Running? || s.timer.Fired?)
    ensures e.TimerFired? ==> s'.message == s.message && s'.listening == s.listening
    ensures s'.outcome == s.outcome
  {
    match e
    case IframeLoad =>
      if s.iframeAttached then s.(posted := s.posted + [reg.messageId], loaded := true) else s
    case Inbound(m) => Receive(s, m, reg, ctx)
    case TimerFired => if s.timer.Running? then s.(timer := Fired) else s
  }

  /** The promise reactions that run before the next event: the timer is
      cleared once the message and the load have resolved, and the outcome
      settles at the first rejection or when all three have resolved. */
  function Propagate(s: State, reg: Registration): State
  {
    var timer := if s.timer.Running? && s.message.Fulfilled? && s.loaded then Cleared else s.timer;
    var outcome :=
      if !s.outcome.Pending? then s.outcome
      else if s.message.Rejected? then s.message
      else if timer.Fired? then Rejected(TimeoutError(reg))
      else if s.message.Fulfilled? && s.loaded && timer.Cleared? then s.message
      else Pending;
    s.(timer := timer, outcome := outcome)
  }

  function Step(s: State, e: Event, reg: Registration, ctx: Context): State
  {
    Propagate(Effect(s, e, reg, ctx), reg)
  }

  /** Right after `loadRegistration`: listening, iframe appended, all pending. */
  const Init := State(true, true, [], Pending, false, Running, Pending)

  /** The state after the events of `t`, in order. */
  function Run(t: seq<Event>, reg: Registration, ctx: Context): State
  {
    if t == [] then Init else Step(Run(t[..|t| - 1], reg, ctx), t[|t| - 1], reg, ctx)
  }

  lemma RunSnoc(t: seq<Event>, e: Event, reg: Registration, ctx: Context)
    ensures Run(t + [e], reg, ctx) == Step(Run(t, reg, ctx), e, reg, ctx)
  {
    assert (t + [e])[..|t|] == t;
  }

  // ---------------------------------------------------------------------
  // A reference semantics read off the trace: where the first load, the
  // first matching message and the first timer event occur.

  datatype Kind = Loads | Fires | Answers(id: string)

  predicate Hits(e: Event, k: Kind)
  {
    match k
    case Loads => e.IframeLoad?
    case Fires => e.TimerFired?
    case Answers(id) => e.Inbound? && e.message.id == Some(id)
  }

  /** The position of the first event of kind `k`, or `|t|` if there is none. */
  function First(t: seq<Event>, k: Kind): (n: nat)
    ensures n <= |t|
    ensures n < |t| ==> Hits(t[n], k)
    ensures forall i :: 0 <= i < n ==> !Hits(t[i], k)
  {
    if t == [] then 0
    else if Hits(t[0], k) then 0
    else
      var n := First(t[1..], k);
      assert forall i :: 1 <= i < n + 1 ==> t[i] == t[1..][i - 1];
      n + 1
  }

  lemma {:induction false} FirstSnoc(t: seq<Event>, e: Event, k: Kind)
    ensures First(t + [e], k) ==
            if First(t, k) < |t| then First(t, k) else if Hits(e, k) then |t| else |t| + 1
  {
    var n, n' := First(t, k), First(t + [e], k);
    assert forall i :: 0 <= i < |t| ==> (t + [e])[i] == t[i];
    if n < |t| {
      assert Hits((t + [e])[n], k);
    } else if Hits(e, k) {
      assert Hits((t + [e])[|t|], k);
    }
  }

  /** What the reference semantics reads off a trace: the positions of the
      first matching message, the first load and the first timer event (each
      `length` when there is none), and how that message settles the message
      promise (`Pending` when there is none). */
  datatype Marks = Marks(answer: nat, load: nat, fire: nat, length: nat, verdict: Settlement)

  function MarksOf(t: seq<Event>, reg: Registration, ctx: Context): Marks
  {
    var m := First(t, Answers(reg.messageId));
    Marks(m, First(t, Loads), First(t, Fires), |t|,
          if m < |t| then Verdict(t[m].message, reg, ctx) else Pending)
  }

  /** The outcome the marks call for. The first matching message decides the
      message promise; a load counts only if it comes before that message
      (afterwards the iframe is gone); and the timer rejects unless the
      message and the load both resolved before it fired. */
  function Decide(k: Marks, reg: Registration): Settlement
  {
    if k.answer < k.length && k.answer < k.fire then
      if k.verdict.Rejected? || k.load < k.answer then k.verdict
      else if k.fire < k.length then Rejected(TimeoutError(reg))
      else Pending
    else if k.fire < k.length then Rejected(TimeoutError(reg))
    else Pending
  }

  /** The timer promise the marks call for. */
  function DecideTimer(k: Marks): Timer
  {
    if k.answer < k.length && k.answer < k.fire && k.verdict.Fulfilled? && k.load < k.answer then Cleared
    else if k.fire < k.length then Fired
    else Running
  }

  /** The outcome of a registration, read off its trace. */
  function Reference(t: seq<Event>, reg: Registration, ctx: Context): Settlement
  {
    Decide(MarksOf(t, reg, ctx), reg)
  }

  /** The marks of `t + [e]`, from the marks of `t`. */
  function Advance(k: Marks, e: Event, reg: Registration, ctx: Context): Marks
  {
    var matching := Hits(e, Answers(reg.messageId));
    Marks(
      if k.answer < k.length then k.answer else if matching then k.length else k.length + 1,
      if k.load < k.length then k.load else if e.IframeLoad? then k.length else k.length + 1,
      if k.fire < k.length then k.fire else if e.TimerFired? then k.length else k.length + 1,
      k.length + 1,
      if k.answer < k.length then k.verdict else if matching then Verdict(e.message, reg, ctx) else Pending)
  }

  lemma MarksSnoc(t: seq<Event>, e: Event, reg: Registration, ctx: Context)
    ensures MarksOf(t + [e], reg, ctx) == Advance(MarksOf(t, reg, ctx), e, reg, ctx)
  {
    FirstSnoc(t, e, Answers(reg.messageId));
    FirstSnoc(t, e, Loads);
    FirstSnoc(t, e, Fires);
    assert forall i :: 0 <= i < |t| ==> (t + [e])[i] == t[i];
    assert (t + [e])[|t|] == e;
  }

  /** `s` is the state the marks `k` call for. */
  ghost predicate Tracks(k: Marks, s: State, reg: Registration)
  {
    && k.answer <= k.length && k.load <= k.length && k.fire <= k.length
    && (k.answer < k.length <==> !k.verdict.Pending?)
    && (k.answer == k.length ==> s.listening)
    && s.iframeAttached == (k.answer == k.length)
    && s.loaded == (k.load < k.answer)
    && s.message == k.verdict
    && s.timer == DecideTimer(k)
    && s.outcome == Decide(k, reg)
  }

  lemma StepTracks(k: Marks, e: Event, reg: Registration, ctx: Context, s: State)
    requires Tracks(k, s, reg)
    ensures Tracks(Advance(k, e, reg, ctx), Step(s, e, reg, ctx), reg)
  {
  }

  lemma {:induction false} RunTracks(t: seq<Event>, reg: Registration, ctx: Context)
    ensures Tracks(MarksOf(t, reg, ctx), Run(t, reg, ctx), reg)
  {
    if t != [] {
      var p := t[..|t| - 1];
      RunTracks(p, reg, ctx);
      StepTracks(MarksOf(p, reg, ctx), t[|t| - 1], reg, ctx, Run(p, reg, ctx));
      assert p + [t[|t| - 1]] == t;
      MarksSnoc(p, t[|t| - 1], reg, ctx);
    }
  }

  /** The state machine settles exactly as the reference semantics says. */
  lemma {:induction false} RunMatchesReference(t: seq<Event>, reg: Registration, ctx: Context)
    ensures Run(t, reg, ctx).outcome == Reference(t, reg, ctx)
    ensures Run(t, reg, ctx).timer == DecideTimer(MarksOf(t, reg, ctx))
  {
    RunTracks(t, reg, ctx);
  }

  // ---------------------------------------------------------------------
  // Consequences.

  lemma StepKeepsSettled(s: State, e: Event, reg: Registration, ctx: Context)
    requires !s.outcome.Pending?
    ensures Step(s, e, reg, ctx).outcome == s.outcome
  {
  }

  /** A registration whose outcome has settled keeps it, whatever happens next. */
  lemma {:induction false} SettledOutcomeIsFinal(t: seq<Event>, u: seq<Event>, reg: Registration, ctx: Context)
    requires !Run(t, reg, ctx).outcome.Pending?
    ensures Run(t + u, reg, ctx).outcome == Run(t, reg, ctx).outcome
  {
    if u == [] {
      assert t + u == t;
    } else {
      var v := u[..|u| - 1];
      SettledOutcomeIsFinal(t, v, reg, ctx);
      assert (t + u)[..|t + u| - 1] == t + v;
      StepKeepsSettled(Run(t + v, reg, ctx), u[|u| - 1], reg, ctx);
    }
  }

  /** A registration resolves, with the scripts of the first matching
      message, exactly when that message is accepted and carries no missing
      entry, the iframe loaded before it, and the timer had not fired by then. */
  lemma {:induction false} ResolvesIff(t: seq<Event>, reg: Registration, ctx: Context)
    ensures var m := First(t, Answers(reg.messageId));
            var l := First(t, Loads);
            var z := First(t, Fires);
            && (Run(t, reg, ctx).outcome.Fulfilled? <==>
                  m < |t| && l < m && m < z && Verdict(t[m].message, reg, ctx).Fulfilled?)
            && (Run(t, reg, ctx).outcome.Fulfilled? ==>
                  Run(t, reg, ctx).outcome == Verdict(t[m].message, reg, ctx))
  {
    RunMatchesReference(t, reg, ctx);
  }

  /** Once the timer has fired, the registration has settled one way or the other. */
  lemma {:induction false} TimerForcesSettlement(t: seq<Event>, reg: Registration, ctx: Context)
    requires First(t, Fires) < |t|
    ensures !Run(t, reg, ctx).outcome.Pending?
  {
    RunMatchesReference(t, reg, ctx);
  }

  /** If the timer fires before a matching message has been accepted with the
      iframe loaded, the registration rejects with the timeout error, which
      names the registration's `src` and timeout. */
  lemma {:induction false} TimerFirstRejects(t: seq<Event>, reg: Registration, ctx: Context)
    requires var m := First(t, Answers(reg.messageId));
             First(t, Fires) < m
    ensures Run(t, reg, ctx).outcome == Rejected(TimeoutError(reg))
    ensures Run(t, reg, ctx).outcome.reason.message ==
            "Registration didn't resolve: \"" + Show(reg.src) + "\" (" + NumberToString(reg.timeout) + "ms)"
  {
    RunMatchesReference(t, reg, ctx);
  }

  /** A first matching message that settles the message promise as rejected
      before the timer fires rejects the registration with that error. */
  lemma {:induction false} RejectingMessageRejects(t: seq<Event>, reg: Registration, ctx: Context)
    requires var m := First(t, Answers(reg.messageId));
             m < |t| && m < First(t, Fires) && Verdict(t[m].message, reg, ctx).Rejected?
    ensures Run(t, reg, ctx).outcome == Verdict(t[First(t, Answers(reg.messageId))].message, reg, ctx)
  {
    RunMatchesReference(t, reg, ctx);
  }

  /** The promise reactions have already run in every reachable state. */
  lemma PropagateStable(k: Marks, s: State, reg: Registration)
    requires Tracks(k, s, reg)
    ensures Propagate(s, reg) == s
  {
  }

  /** A message whose id is not this registration's changes nothing at all. */
  lemma ForeignMessageChangesNothing(t: seq<Event>, m: Message, reg: Registration, ctx: Context)
    requires !Matches(m, reg)
    ensures Step(Run(t, reg, ctx), Inbound(m), reg, ctx) == Run(t, reg, ctx)
  {
    RunTracks(t, reg, ctx);
    PropagateStable(MarksOf(t, reg, ctx), Run(t, reg, ctx), reg);
  }

  /** Two registrations with different message ids never consume each
      other's response. */
  lemma RegistrationsIsolated(t: seq<Event>, m: Message, a: Registration, b: Registration, ctx: Context)
    requires a.messageId != b.messageId && Matches(m, a)
    ensures Step(Run(t, b, ctx), Inbound(m), b, ctx) == Run(t, b, ctx)
  {
    ForeignMessageChangesNothing(t, m, b, ctx);
  }

  /** A matching message always removes the iframe, but removes the listener
      only when it is accepted; it settles a still-pending message promise
      with its verdict. */
  lemma MatchingMessageCleanup(t: seq<Event>, m: Message, reg: Registration, ctx: Context)
    requires Matches(m, reg) && Run(t, reg, ctx).listening
    ensures var s := Run(t, reg, ctx);
            var s' := Step(s, Inbound(m), reg, ctx);
            && !s'.iframeAttached
            && (s'.listening <==> !Accepted(m, ctx))
            && (s.message.Pending? ==> s'.message == Verdict(m, reg, ctx))
  {
  }

  /** Each load of the attached iframe posts `{ id: messageId }` to it, and
      nothing else is ever posted; a request has been posted exactly when the
      load promise has resolved. */
  lemma {:induction false} PostsOwnId(t: seq<Event>, reg: Registration, ctx: Context)
    ensures forall i :: 0 <= i < |Run(t, reg, ctx).posted| ==> Run(t, reg, ctx).posted[i] == reg.messageId
    ensures |Run(t, reg, ctx).posted| > 0 <==> Run(t, reg, ctx).loaded
  {
    if t != [] {
      PostsOwnId(t[..|t| - 1], reg, ctx);
    }
  }

  /** The usual exchange: the iframe loads, then a matching message arrives
      before the timer; the registration settles with that message's verdict,
      and the host has posted its message id exactly once. */
  lemma LoadThenAnswer(m: Message, reg: Registration, ctx: Context)
    requires Matches(m, reg)
    ensures Run([IframeLoad], reg, ctx).posted == [reg.messageId]
    ensures Run([IframeLoad, Inbound(m)], reg, ctx).outcome == Verdict(m, reg, ctx)
  {
    RunSnoc([], IframeLoad, reg, ctx);
    assert [] + [IframeLoad] == [IframeLoad];
    RunSnoc([IframeLoad], Inbound(m), reg, ctx);
    assert [IframeLoad] + [Inbound(m)] == [IframeLoad, Inbound(m)];
  }
}

=== FILE: js.dfy ===
/** The small slice of JavaScript value semantics the harness relies on:
    truthiness, string conversion of `undefined` and numbers, `Error`
    objects, and `indexOf`/`lastIndexOf` on strings. */
module Js {

  datatype Option<+T> = None | Some(value: T)

  /** A JavaScript value as far as the harness inspects one. Numbers are
      integers here: no fractional, NaN or infinite values are modelled. */
  datatype Value = Undefined | Null | Boolean(b: bool) | Number(n: int) | Str(s: string) | Object

  /** `!!v`. */
  predicate Truthy(v: Value)
  {
    match v
    case Undefined => false
    case Null => false
    case Boolean(b) => b
    case Number(n) => n != 0
    case Str(s) => s != ""
    case Object => true
  }

  /** Truthiness of an optional string attribute or field: both a missing
      value and the empty string are falsy. */
  predicate Present(o: Option<string>)
  {
    o.Some? && o.value != ""
  }

  /** `String(o)` for an optional string: a missing value prints as "undefined". */
  function Show(o: Option<string>): string
  {
    if o.Some? then o.value else "undefined"
  }

  /** A thrown or rejected JavaScript error object: its `name` and `message`. */
  datatype Error = Error(name: string, message: string)

  /** `new Error(message)`. */
  function NewError(message: string): (e: Error)
    ensures e.name == "Error" && e.message == message
  {
    Error("Error", message)
  }

  predicate IsDigit(c: char)
  {
    '0' <= c <= '9'
  }

  function Digit(d: nat): (c: char)
    requires d < 10
    ensures IsDigit(c)
  {
    (('0' as int) + d) as char
  }

  /** The decimal numeral of `n`, as `String(n)` prints it. */
  function Decimal(n: nat): (r: string)
    ensures 1 <= |r|
    ensures forall i :: 0 <= i < |r| ==> IsDigit(r[i])
    ensures n < 10 <==> |r| == 1
    decreases n
  {
    if n < 10 then [Digit(n)] else Decimal(n / 10) + [Digit(n % 10)]
  }

  /** Distinct numbers print as distinct numerals. */
  lemma {:induction false} DecimalInjective(a: nat, b: nat)
    ensures Decimal(a) == Decimal(b) ==> a == b
    decreases a
  {
    if Decimal(a) == Decimal(b) && a >= 10 && b >= 10 {
      var da, db := Decimal(a), Decimal(b);
      assert da[|da| - 1] == Digit(a % 10);
      assert db[|db| - 1] == Digit(b % 10);
      assert da[..|da| - 1] == Decimal(a / 10);
      assert db[..|db| - 1] == Decimal(b / 10);
      DecimalInjective(a / 10, b / 10);
    }
  }

  /** `String(n)` for an integer. */
  function NumberToString(n: int): (r: string)
    ensures 1 <= |r|
    ensures n >= 0 ==> r == Decimal(n)
    ensures n < 0 ==> r[0] == '-' && r[1..] == Decimal(-n)
  {
    if n < 0 then "-" + Decimal(-n) else Decimal(n)
  }

  /** `s.indexOf(c)`: the first position of `c`, or -1. */
  function IndexOf(s: string, c: char): (r: int)
    ensures -1 <= r < |s|
    ensures r >= 0 ==> s[r] == c
    ensures forall j :: 0 <= j < |s| && (r == -1 || j < r) ==> s[j] != c
  {
    if s == [] then -1
    else if s[0] == c then 0
    else
      var k := IndexOf(s[1..], c);
      if k == -1 then -1 else k + 1
  }

  /** `s.lastIndexOf(c)`: the last position of `c`, or -1. */
  function LastIndexOf(s: string, c: char): (r: int)
    ensures -1 <= r < |s|
    ensures r >= 0 ==> s[r] == c
    ensures forall j :: 0 <= j < |s| && r < j ==> s[j] != c
  {
    if s == [] then -1
    else if s[|s| - 1] == c then |s| - 1
    else LastIndexOf(s[..|s| - 1], c)
  }
}

=== FILE: pipeline.dfy ===
/** The host's loading pipeline (`execute`, bbh.js:69-126): request the module
    scripts, wait for the registrations, then stop if any result is an error,
    otherwise map the globals and report leaks. Rejections are caught and
    kept as values (bbh.js:205-210, 236-241), so every request contributes to
    one list of scripts and errors, and only `isError` decides whether the
    pipeline goes on. Transpiling itself is not modelled. */
module Pipeline {
  import opened Js
  import opened Entries
  import opened Scripts
  import opened Registrations
  import opened Handshake
  import opened Globals
  import Seqs

  /** One entry of `scriptsAndErrors`: a script element, or a rejection
      reason caught and returned as a value. */
  datatype Item = Script(el: Element) | Thrown(error: Error)

  /** `isError` as written. `Object.prototype.toString(o)` ignores its
      argument and always yields "[object Object]", so only the second
      disjunct can hold: an object named "Error" with a string message
      (every modelled reason has one). */
  predicate IsError(x: Item)
  {
    x.Thrown? && x.error.name == "Error"
  }

  /** `isError` with `Object.prototype.toString.call(o)`, as evidently
      intended: every error object, whatever its name, is recognised. */
  predicate IsErrorIntended(x: Item)
  {
    x.Thrown?
  }

  /** What `isError` as written recognises: every plain `Error`, but no
      other error object, not even the `TypeError` of a missing `scripts`
      entry that the intended test recognises; a script is never an error. */
  lemma IsErrorRecognises(message: string, el: Element, x: Item)
    ensures IsError(Thrown(NewError(message)))
    ensures !IsError(Thrown(NULL_ENTRY_ERROR)) && IsErrorIntended(Thrown(NULL_ENTRY_ERROR))
    ensures !IsError(Script(el)) && !IsErrorIntended(Script(el))
    ensures IsError(x) ==> IsErrorIntended(x)
  {
  }

  /** Which of the two tests the error check applies. */
  datatype Recogniser = AsWritten | Intended

  predicate Flags(rec: Recogniser, x: Item)
  {
    match rec
    case AsWritten => IsError(x)
    case Intended => IsErrorIntended(x)
  }

  /** The error a module URL that fails to load rejects with: it names the
      script's `data-name`, or the URL itself when that is empty. */
  function NotAccessible(url: string): (e: Error)
    ensures e.name == "Error"
    ensures DataName(url) != "" ==> e.message == "The script \"" + DataName(url) + "\" is not accessible"
    ensures DataName(url) == "" ==> e.message == "The script \"" + url + "\" is not accessible"
  {
    var shown := if DataName(url) != "" then DataName(url) else url;
    NewError("The script \"" + shown + "\" is not accessible")
  }

  /** The `<script>` element appended for a module URL. */
  function ExternalScript(url: string, remove: bool): Element
  {
    Element(None, None, Some(url), "", Some(DataName(url)), None, remove)
  }

  /** The item one module URL ends up as: its element when the script
      loads, otherwise the caught error. */
  function LoadOne(url: string, reachable: string -> bool, remove: bool): (x: Item)
    ensures IsError(x) <==> !reachable(url)
    ensures x.Thrown? <==> !reachable(url)
    ensures reachable(url) ==>
              && x.el.src == Some(url)
              && x.el.dataName == Some(DataName(url))
              && !IsBabel(x.el)
              && x.el.dataRemove == remove
    ensures !reachable(url) ==> x.error == NotAccessible(url)
  {
    if reachable(url) then Script(ExternalScript(url, remove)) else Thrown(NotAccessible(url))
  }

  /** `loadExternalScripts` once every request has finished: one item per
      URL, in order; `reachable(u)` says whether the script at `u` loads. */
  function LoadExternal(urls: seq<string>, reachable: string -> bool, remove: bool): (r: seq<Item>)
    ensures |r| == |urls|
    ensures forall i :: 0 <= i < |urls| ==> r[i] == LoadOne(urls[i], reachable, remove)
  {
    if urls == [] then []
    else
      var rest := LoadExternal(urls[1..], reachable, remove);
      [LoadOne(urls[0], reachable, remove)] + rest
  }

  /** `scripts` as items. */
  function AsItems(els: seq<Element>): (r: seq<Item>)
    ensures |r| == |els|
    ensures forall i :: 0 <= i < |els| ==> r[i] == Script(els[i])
  {
    if els == [] then [] else [Script(els[0])] + AsItems(els[1..])
  }

  /** What one settled registration contributes: its array of scripts
      spliced in, or its rejection reason as one item. */
  function Contribution(s: Settlement): seq<Item>
    requires !s.Pending?
  {
    if s.Fulfilled? then AsItems(s.scripts) else [Thrown(s.reason)]
  }

  predicate Settled(rs: seq<Settlement>)
  {
    forall j :: 0 <= j < |rs| ==> !rs[j].Pending?
  }

  /** The flattening at the end of `loadRegistrations`: `push.apply` for an
      array, `push.call` for anything else. */
  function Flatten(rs: seq<Settlement>): seq<Item>
    requires Settled(rs)
  {
    if rs == [] then [] else Contribution(rs[0]) + Flatten(rs[1..])
  }

  /** Every script of every fulfilled registration and the reason of every
      rejected one appear in the flattened list ... */
  lemma {:induction false} FlattenKeeps(rs: seq<Settlement>, j: nat)
    requires Settled(rs) && j < |rs|
    ensures rs[j].Fulfilled? ==> forall k :: 0 <= k < |rs[j].scripts| ==> Script(rs[j].scripts[k]) in Flatten(rs)
    ensures rs[j].Rejected? ==> Thrown(rs[j].reason) in Flatten(rs)
  {
    var c := Contribution(rs[0]);
    assert Flatten(rs) == c + Flatten(rs[1..]);
    if j == 0 {
      if rs[0].Fulfilled? {
        forall k | 0 <= k < |rs[0].scripts| ensures Script(rs[0].scripts[k]) in Flatten(rs) {
          assert Flatten(rs)[k] == c[k];
        }
      } else {
        assert Flatten(rs)[0] == Thrown(rs[0].reason);
      }
    } else {
      assert rs[j] == rs[1..][j - 1];
      FlattenKeeps(rs[1..], j - 1);
    }
  }

  /** ... and nothing else does: every item comes from some registration,
      a script from a fulfilled one and an error from a rejected one. */
  lemma {:induction false} FlattenOrigin(rs: seq<Settlement>, i: nat)
    requires Settled(rs) && i < |Flatten(rs)|
    ensures Flatten(rs)[i].Thrown? ==> exists j :: 0 <= j < |rs| && rs[j] == Rejected(Flatten(rs)[i].error)
    ensures Flatten(rs)[i].Script? ==>
              exists j :: 0 <= j < |rs| && rs[j].Fulfilled? && Flatten(rs)[i].el in rs[j].scripts
  {
    var c := Contribution(rs[0]);
    var r := Flatten(rs);
    assert r == c + Flatten(rs[1..]);
    if i < |c| {
      if rs[0].Fulfilled? {
        assert r[i].el == rs[0].scripts[i];
      } else {
        assert rs[0] == Rejected(r[i].error);
      }
    } else {
      FlattenOrigin(rs[1..], i - |c|);
      assert r[i] == Flatten(rs[1..])[i - |c|];
      if r[i].Thrown? {
        var j :| 0 <= j < |rs[1..]| && rs[1..][j] == Rejected(r[i].error);
        assert rs[j + 1] == Rejected(r[i].error);
      } else {
        var j :| 0 <= j < |rs[1..]| && rs[1..][j].Fulfilled? && r[i].el in rs[1..][j].scripts;
        assert rs[j + 1] == rs[1..][j];
      }
    }
  }

  /** Flattening keeps the registrations' order. */
  lemma {:induction false} FlattenAppend(a: seq<Settlement>, b: seq<Settlement>)
    requires Settled(a) && Settled(b)
    ensures Settled(a + b)
    ensures Flatten(a + b) == Flatten(a) + Flatten(b)
  {
    SettledAppend(a, b);
    if a == [] {
      assert a + b == b;
    } else {
      FlattenAppend(a[1..], b);
      assert a + b == [a[0]] + (a[1..] + b);
      FlattenCons(a[0], a[1..] + b);
      FlattenCons(a[0], a[1..]);
      assert [a[0]] + a[1..] == a;
    }
  }

  lemma SettledAppend(a: seq<Settlement>, b: seq<Settlement>)
    requires Settled(a) && Settled(b)
    ensures Settled(a + b)
  {
    forall j | 0 <= j < |a + b| ensures !(a + b)[j].Pending? {
      if j < |a| { assert (a + b)[j] == a[j]; } else { assert (a + b)[j] == b[j - |a|]; }
    }
  }

  lemma FlattenCons(s: Settlement, rs: seq<Settlement>)
    requires !s.Pending? && Settled(rs)
    ensures Settled([s] + rs)
    ensures Flatten([s] + rs) == Contribution(s) + Flatten(rs)
  {
    assert ([s] + rs)[1..] == rs;
  }

  /** Some item is an error the given test recognises. */
  predicate AnyFlagged(items: seq<Item>, rec: Recogniser)
  {
    exists i :: 0 <= i < |items| && Flags(rec, items[i])
  }

  /** Some registration rejected with an error the given test recognises. */
  predicate AnyRejected(rs: seq<Settlement>, rec: Recogniser)
  {
    exists j :: 0 <= j < |rs| && rs[j].Rejected? && Flags(rec, Thrown(rs[j].reason))
  }

  /** Some URL fails to load. */
  predicate AnyUnreachable(urls: seq<string>, reachable: string -> bool)
  {
    exists i :: 0 <= i < |urls| && !reachable(urls[i])
  }

  /** The flattened list holds an error exactly when some registration
      rejected with an error the given test recognises. */
  lemma {:induction false} FlattenFlags(rs: seq<Settlement>, rec: Recogniser)
    requires Settled(rs)
    ensures AnyFlagged(Flatten(rs), rec) <==> AnyRejected(rs, rec)
  {
    var r := Flatten(rs);
    if AnyFlagged(r, rec) {
      var i :| 0 <= i < |r| && Flags(rec, r[i]);
      FlattenOrigin(rs, i);
      var j :| 0 <= j < |rs| && rs[j] == Rejected(r[i].error);
      assert Thrown(rs[j].reason) == r[i];
    }
    if AnyRejected(rs, rec) {
      var j :| 0 <= j < |rs| && rs[j].Rejected? && Flags(rec, Thrown(rs[j].reason));
      FlattenKeeps(rs, j);
      var i :| 0 <= i < |r| && r[i] == Thrown(rs[j].reason);
    }
  }

  // ---------------------------------------------------------------------
  // One load cycle.

  /** Everything the pipeline reads from outside: which module URLs load,
      the events that reach registration `j` (the load of its own iframe, its
      own timer, and every window message), the host page's settings, and the
      keys on `window` at start and once every script has loaded, just before
      `mapGlobals` runs, and which of those keys cannot be deleted. */
  datatype World = World(
    reachable: string -> bool,
    traceOf: nat -> seq<Event>,
    ctx: Context,
    start: seq<string>,
    now: seq<string>,
    fixed: set<string>)

  /** Where the pipeline stands: still waiting for a registration, stopped
      after logging the errors (the promise never settles), rejected because
      `mapGlobals` threw (leaks are never detected and nothing is
      transpiled), or going on to transpile the scripts with the given global
      mappings and leak report. */
  datatype Outcome =
    | Waiting
    | Halted(errors: seq<Item>)
    | Fails(reason: Error)
    | Proceeds(items: seq<Item>, mappings: seq<Mapping>, leaks: seq<string>)

  /** The settlement of each registration after the events it has seen. */
  function Outcomes(regs: seq<Registration>, w: World): (rs: seq<Settlement>)
    ensures |rs| == |regs|
    ensures forall j :: 0 <= j < |regs| ==> rs[j] == Run(w.traceOf(j), regs[j], w.ctx).outcome
  {
    seq(|regs|, j requires 0 <= j < |regs| => Run(w.traceOf(j), regs[j], w.ctx).outcome)
  }

  /** `loadExternalScripts().then(loadRegistrationsAndMergeScriptsAndErrors)`:
      the module scripts' items followed by the registrations' items, or
      `None` while `Promise.all` still waits for a registration. With no
      registrations the external items pass through unchanged. */
  function Gather(entries: seq<ModuleEntry>, regs: seq<Registration>, w: World): Option<seq<Item>>
  {
    var external := LoadExternal(Urls(entries), w.reachable, w.ctx.removeModuleScripts);
    if regs == [] then Some(external)
    else
      var rs := Outcomes(regs, w);
      if Settled(rs) then Some(external + Flatten(rs)) else None
  }

  /** `mapAndTranspile` up to transpiling: stop at any error, otherwise map
      the globals, where a `delete` that throws rejects the promise, and
      detect leaks among the keys `mapGlobals` left. */
  function MapAndTranspile(entries: seq<ModuleEntry>, items: seq<Item>, w: World, rec: Recogniser): (o: Outcome)
    ensures !o.Waiting?
    ensures o.Halted? <==> AnyFlagged(items, rec)
    ensures o.Halted? ==> forall i :: 0 <= i < |o.errors| ==> Flags(rec, o.errors[i]) && o.errors[i] in items
    ensures o.Halted? ==> forall i :: 0 <= i < |items| && Flags(rec, items[i]) ==> items[i] in o.errors
    ensures o.Fails? <==> !AnyFlagged(items, rec) && StuckAt(entries, w.now, w.fixed).Some?
    ensures o.Fails? ==> o.reason.name == "TypeError"
    ensures o.Proceeds? ==> o.items == items
  {
    var errors := Seqs.Filter(items, x => Flags(rec, x));
    StuckAtFirst(entries, w.now, w.fixed);
    if errors != [] then Halted(errors)
    else
      match StuckAt(entries, w.now, w.fixed)
      case Some(i) => Fails(DeleteError(entries[i], WindowAfter(entries[..i], w.now), w.fixed))
      case None =>
        Proceeds(items, MapGlobals(entries, w.now), Leaks(WindowAfter(entries, w.now), w.start, GlobalIgnores(entries)))
  }

  /** The whole cycle after `DOMContentLoaded` for a host page with module
      configuration `cfg` and registrations `regs`. */
  function LoadCycle(cfg: ModulesConfig, regs: seq<Registration>, w: World, rec: Recogniser): (o: Outcome)
    ensures o.Waiting? <==> !Settled(Outcomes(regs, w))
    ensures o.Proceeds? ==> |o.mappings| == |BuildModuleEntries(cfg)|
  {
    var entries := BuildModuleEntries(cfg);
    var items := Gather(entries, regs, w);
    if items.None? then Waiting else MapAndTranspile(entries, items.value, w, rec)
  }

  /** Some module URL of the configuration fails to load. */
  predicate SomeUnreachable(cfg: ModulesConfig, w: World)
  {
    AnyUnreachable(Urls(BuildModuleEntries(cfg)), w.reachable)
  }

  /** Some registration has rejected with an error the given test recognises. */
  predicate SomeRejected(regs: seq<Registration>, w: World, rec: Recogniser)
  {
    AnyRejected(Outcomes(regs, w), rec)
  }

  /** What `Gather` waits for and what it collects. */
  lemma GatherItems(entries: seq<ModuleEntry>, regs: seq<Registration>, w: World)
    ensures Gather(entries, regs, w).None? <==> !Settled(Outcomes(regs, w))
    ensures Gather(entries, regs, w).Some? ==>
              Gather(entries, regs, w).value ==
              LoadExternal(Urls(entries), w.reachable, w.ctx.removeModuleScripts) + Flatten(Outcomes(regs, w))
  {
    if regs == [] {
      var external := LoadExternal(Urls(entries), w.reachable, w.ctx.removeModuleScripts);
      assert external + Flatten(Outcomes(regs, w)) == external;
    }
  }

  lemma {:induction false} ConcatFlags(x: seq<Item>, y: seq<Item>, rec: Recogniser)
    ensures AnyFlagged(x + y, rec) <==> AnyFlagged(x, rec) || AnyFlagged(y, rec)
  {
    if AnyFlagged(x + y, rec) {
      var i :| 0 <= i < |x + y| && Flags(rec, (x + y)[i]);
      if i >= |x| {
        assert (x + y)[i] == y[i - |x|];
      } else {
        assert (x + y)[i] == x[i];
      }
    }
    if AnyFlagged(y, rec) {
      var i :| 0 <= i < |y| && Flags(rec, y[i]);
      assert (x + y)[|x| + i] == y[i];
    }
    if AnyFlagged(x, rec) {
      var i :| 0 <= i < |x| && Flags(rec, x[i]);
      assert (x + y)[i] == x[i];
    }
  }

  /** The module scripts' items hold a recognised error exactly when some
      URL failed to load, whichever test is used. */
  lemma ExternalFlags(urls: seq<string>, reachable: string -> bool, remove: bool, rec: Recogniser)
    ensures AnyFlagged(LoadExternal(urls, reachable, remove), rec) <==> AnyUnreachable(urls, reachable)
  {
    var r := LoadExternal(urls, reachable, remove);
    if AnyFlagged(r, rec) {
      var i :| 0 <= i < |r| && Flags(rec, r[i]);
      assert !reachable(urls[i]);
    }
    if AnyUnreachable(urls, reachable) {
      var i :| 0 <= i < |urls| && !reachable(urls[i]);
      assert Flags(rec, r[i]);
    }
  }

  /** The collected items hold a recognised error exactly when a module URL
      failed to load or a registration rejected with a recognised error. */
  lemma {:induction false} ItemsFlags(urls: seq<string>, w: World, rs: seq<Settlement>, rec: Recogniser)
    requires Settled(rs)
    ensures AnyFlagged(LoadExternal(urls, w.reachable, w.ctx.removeModuleScripts) + Flatten(rs), rec) <==>
            AnyUnreachable(urls, w.reachable) || AnyRejected(rs, rec)
  {
    var external := LoadExternal(urls, w.reachable, w.ctx.removeModuleScripts);
    ConcatFlags(external, Flatten(rs), rec);
    ExternalFlags(urls, w.reachable, w.ctx.removeModuleScripts, rec);
    FlattenFlags(rs, rec);
  }

  /** The pipeline waits exactly while some registration is pending; once
      none is, it stops exactly when a module URL failed to load or a
      registration rejected with a recognised error; otherwise it rejects
      exactly when `mapGlobals` meets an export it cannot delete, and else
      goes on with the module scripts' items followed by the registrations',
      the global mappings of every module entry, and the leaks. */
  lemma {:induction false} LoadCycleOutcome(cfg: ModulesConfig, regs: seq<Registration>, w: World, rec: Recogniser)
    ensures var o := LoadCycle(cfg, regs, w, rec);
            && (o.Waiting? <==> !Settled(Outcomes(regs, w)))
            && (!o.Waiting? ==> (o.Halted? <==> SomeUnreachable(cfg, w) || SomeRejected(regs, w, rec)))
    ensures var o := LoadCycle(cfg, regs, w, rec);
            !o.Waiting? && !o.Halted? ==> (o.Fails? <==> StuckAt(BuildModuleEntries(cfg), w.now, w.fixed).Some?)
    ensures var o := LoadCycle(cfg, regs, w, rec);
            var entries := BuildModuleEntries(cfg);
            o.Proceeds? ==>
              && o.items == LoadExternal(Urls(entries), w.reachable, w.ctx.removeModuleScripts) + Flatten(Outcomes(regs, w))
              && o.mappings == MapGlobals(entries, w.now)
              && o.leaks == Leaks(WindowAfter(entries, w.now), w.start, GlobalIgnores(entries))
  {
    var entries := BuildModuleEntries(cfg);
    GatherItems(entries, regs, w);
    if Settled(Outcomes(regs, w)) {
      ItemsFlags(Urls(entries), w, Outcomes(regs, w), rec);
    }
  }

  /** When the pipeline goes on, the `bbh` and `Babel` globals are not among
      the leaks it reports: their default entries deleted them first. */
  lemma DefaultGlobalsNotLeaked(cfg: ModulesConfig, regs: seq<Registration>, w: World, rec: Recogniser)
    ensures var o := LoadCycle(cfg, regs, w, rec);
            o.Proceeds? ==> "bbh" !in o.leaks && "Babel" !in o.leaks
  {
    DefaultExportsNeverLeak(cfg, w.now, w.start);
  }

  /** A library whose script declares its export with a top-level `var`:
      once every script loads, `mapGlobal` finds the export, cannot delete
      it, and the pipeline rejects with the `TypeError` before leaks are
      detected. */
  lemma UndeletableExportFails(w: World, rec: Recogniser)
    requires forall u :: w.reachable(u)
    requires w.now == ["MyLib"] && w.fixed == {"MyLib"}
    ensures var lib := ModuleEntry(Some("mylib"), Some("mylib.js"), One("MyLib"), Absent, Undefined, Undefined);
            LoadCycle(ListForm([lib]), [], w, rec) == Fails(Error("TypeError", DeleteMessage("MyLib")))
  {
    var lib := ModuleEntry(Some("mylib"), Some("mylib.js"), One("MyLib"), Absent, Undefined, Undefined);
    var entries := BuildModuleEntries(ListForm([lib]));
    OnlyExportThrows(lib, "MyLib", w.fixed);
    assert entries[0] == lib;
    assert StuckAt(entries, w.now, w.fixed) == Some(0);
    var items := LoadExternal(Urls(entries), w.reachable, w.ctx.removeModuleScripts);
    ExternalFlags(Urls(entries), w.reachable, w.ctx.removeModuleScripts, rec);
    assert Gather(entries, [], w) == Some(items);
    StuckMapAndTranspile(entries, items, w, rec);
    assert entries[..0] == [];
    assert WindowAfter(entries[..0], w.now) == ["MyLib"];
    assert LoadCycle(ListForm([lib]), [], w, rec) == MapAndTranspile(entries, items, w, rec);
  }

  lemma OnlyExportThrows(e: ModuleEntry, k: string, fixed: set<string>)
    requires Present(e.name) && Normalize(e).deleteFromWindow && Normalize(e).exports == [k] && k in fixed
    ensures Throws(e, [k], fixed)
    ensures DeleteError(e, [k], fixed) == Error("TypeError", DeleteMessage(k))
  {
    assert Normalize(e).exports[0] == k;
    assert Seqs.Filter([k], x => x in [k] && x in fixed) == [k];
  }

  lemma StuckMapAndTranspile(entries: seq<ModuleEntry>, items: seq<Item>, w: World, rec: Recogniser)
    requires !AnyFlagged(items, rec) && StuckAt(entries, w.now, w.fixed).Some?
    ensures var i := StuckAt(entries, w.now, w.fixed).value;
            Throws(entries[i], WindowAfter(entries[..i], w.now), w.fixed) &&
            MapAndTranspile(entries, items, w, rec) == Fails(DeleteError(entries[i], WindowAfter(entries[..i], w.now), w.fixed))
  {
    StuckAtFirst(entries, w.now, w.fixed);
  }

  /** A module URL that fails to load always stops the pipeline, whichever
      test is used: its error is a plain `Error`. */
  lemma {:induction false} UnreachableModuleHalts(cfg: ModulesConfig, regs: seq<Registration>, w: World, rec: Recogniser)
    requires SomeUnreachable(cfg, w) && Settled(Outcomes(regs, w))
    ensures LoadCycle(cfg, regs, w, rec).Halted?
  {
    LoadCycleOutcome(cfg, regs, w, rec);
  }

  /** Every reason a registration can reject with is a plain `Error`, except
      the `TypeError` of a missing `scripts` entry. */
  lemma RejectionReasons(t: seq<Event>, reg: Registration, ctx: Context)
    requires Run(t, reg, ctx).outcome.Rejected?
    ensures var e := Run(t, reg, ctx).outcome.reason;
            e.name == "Error" || e == NULL_ENTRY_ERROR
  {
    RunMatchesReference(t, reg, ctx);
  }

  /** A registration answered with a `scripts` array holding `null` rejects
      with the `TypeError`. */
  lemma NullEntryRejects(reg: Registration, ctx: Context)
    ensures var m := Message(Some(reg.messageId), None, ArrayOf([Missing]), ctx.hostOrigin);
            Run([IframeLoad, Inbound(m)], reg, ctx).outcome == Rejected(NULL_ENTRY_ERROR)
  {
    var m := Message(Some(reg.messageId), None, ArrayOf([Missing]), ctx.hostOrigin);
    LoadThenAnswer(m, reg, ctx);
  }

  /** As written, such a rejection does not stop the pipeline: when every
      module loads and every other registration resolves, the pipeline does
      not halt, and unless `mapGlobals` throws it goes on, with the
      `TypeError` in its list and none of that registration's scripts. */
  lemma {:induction false} NullEntryDoesNotHalt(cfg: ModulesConfig, regs: seq<Registration>, w: World, j: nat)
    requires !SomeUnreachable(cfg, w) && Settled(Outcomes(regs, w))
    requires forall k :: 0 <= k < |regs| && Outcomes(regs, w)[k].Rejected? ==>
               Outcomes(regs, w)[k].reason == NULL_ENTRY_ERROR
    requires j < |regs| && Outcomes(regs, w)[j].Rejected?
    ensures !LoadCycle(cfg, regs, w, AsWritten).Halted?
    ensures StuckAt(BuildModuleEntries(cfg), w.now, w.fixed).None? ==>
              && LoadCycle(cfg, regs, w, AsWritten).Proceeds?
              && Thrown(NULL_ENTRY_ERROR) in LoadCycle(cfg, regs, w, AsWritten).items
  {
    var rs := Outcomes(regs, w);
    assert !AnyRejected(rs, AsWritten);
    LoadCycleOutcome(cfg, regs, w, AsWritten);
    FlattenKeeps(rs, j);
    InAppend(LoadExternal(Urls(BuildModuleEntries(cfg)), w.reachable, w.ctx.removeModuleScripts), Flatten(rs), Thrown(NULL_ENTRY_ERROR));
  }

  lemma InAppend(x: seq<Item>, y: seq<Item>, v: Item)
    requires v in y
    ensures v in x + y
  {
    var i :| 0 <= i < |y| && y[i] == v;
    assert (x + y)[|x| + i] == v;
  }

  /** With the intended test, the pipeline stops exactly when a module URL
      failed to load or any registration rejected, for whatever reason. */
  lemma {:induction false} IntendedHaltsIff(cfg: ModulesConfig, regs: seq<Registration>, w: World)
    requires Settled(Outcomes(regs, w))
    ensures LoadCycle(cfg, regs, w, Intended).Halted? <==>
            SomeUnreachable(cfg, w) || exists j :: 0 <= j < |regs| && Outcomes(regs, w)[j].Rejected?
  {
    LoadCycleOutcome(cfg, regs, w, Intended);
    var rs := Outcomes(regs, w);
    if exists j :: 0 <= j < |regs| && rs[j].Rejected? {
      var j :| 0 <= j < |regs| && rs[j].Rejected?;
      assert Flags(Intended, Thrown(rs[j].reason));
    }
  }
}

=== FILE: registrations.dfy ===
/** `bbh.register` (bbh.js:213-230): turning the caller's options into
    registration records. The random message id (`generateRandomId`) is an
    input: `gen(k)` is the id generated for the record pushed at position k. */
module Registrations {
  import opened Js

  const DEFAULT_TIMEOUT := 3000

  /** The options object as the harness reads it. `timeout` is `None` when
      `typeof options.timeout !== 'number'`. */
  datatype Options = Options(src: Option<string>, timeout: Option<int>, messageId: Option<string>)

  /** The argument of `register`: one options object, `null` or `undefined`
      (reading `src` from it throws a `TypeError`), or an array of arguments
      (arrays may nest). */
  datatype Arg = Single(options: Options) | Nothing | Batch(items: seq<Arg>)

  /** One registration record. */
  datatype Registration = Registration(src: Option<string>, timeout: int, messageId: string)

  /** The registrations after a call to `register`, and whether the call
      threw. Records pushed before a throw stay pushed. */
  datatype Pushed = Pushed(regs: seq<Registration>, threw: bool)

  function Record(o: Options, generated: string): Registration
  {
    Registration(
      o.src,
      if o.timeout.Some? then o.timeout.value else DEFAULT_TIMEOUT,
      if Present(o.messageId) then o.messageId.value else generated)
  }

  /** `register(arg)` applied to the list of registrations so far. */
  function Register(regs: seq<Registration>, arg: Arg, gen: nat -> string): (r: Pushed)
    ensures |r.regs| >= |regs| && r.regs[..|regs|] == regs
    ensures arg.Nothing? ==> r == Pushed(regs, true)
    decreases arg, 1
  {
    match arg
    case Single(o) => Pushed(regs + [Record(o, gen(|regs|))], false)
    case Nothing => Pushed(regs, true)
    case Batch(items) => RegisterEach(regs, items, gen)
  }

  /** `items.forEach(_ => register(_))`, which stops at the first throw. */
  function RegisterEach(regs: seq<Registration>, items: seq<Arg>, gen: nat -> string): (r: Pushed)
    ensures |r.regs| >= |regs| && r.regs[..|regs|] == regs
    decreases items, 0
  {
    if items == [] then Pushed(regs, false)
    else
      var first := Register(regs, items[0], gen);
      if first.threw then first
      else
        var r := RegisterEach(first.regs, items[1..], gen);
        assert r.regs[..|regs|] == r.regs[..|first.regs|][..|regs|];
        r
  }

  /** The leaves an argument holds, in array order, flattened: an options
      object, or `None` for `null` or `undefined`. */
  function Leaves(arg: Arg): seq<Option<Options>>
    decreases arg, 1
  {
    match arg
    case Single(o) => [Some(o)]
    case Nothing => [None]
    case Batch(items) => LeavesEach(items)
  }

  function LeavesEach(items: seq<Arg>): seq<Option<Options>>
    decreases items, 0
  {
    if items == [] then [] else Leaves(items[0]) + LeavesEach(items[1..])
  }

  /** The options objects before the first `null` or `undefined` leaf. */
  function Before(ls: seq<Option<Options>>): seq<Options>
  {
    if ls == [] || ls[0].None? then [] else [ls[0].value] + Before(ls[1..])
  }

  lemma {:induction false} BeforeAppend(a: seq<Option<Options>>, b: seq<Option<Options>>)
    ensures None in a ==> Before(a + b) == Before(a)
    ensures None !in a ==> Before(a + b) == Before(a) + Before(b)
  {
    if a == [] {
      assert a + b == b;
    } else {
      assert (a + b)[0] == a[0];
      assert (a + b)[1..] == a[1..] + b;
      BeforeAppend(a[1..], b);
      if a[0].Some? {
        assert None in a <==> None in a[1..];
      }
    }
  }

  /** `rec` is the record `register` makes from options `o` when the
      generator would supply `generated`: it keeps `src`, takes `timeout`
      when it is a number and 3000 otherwise, and keeps a truthy
      `messageId`, otherwise it takes the generated one. */
  predicate MadeFrom(rec: Registration, o: Options, generated: string)
  {
    && rec.src == o.src
    && (o.timeout.Some? ==> rec.timeout == o.timeout.value)
    && (o.timeout.None? ==> rec.timeout == DEFAULT_TIMEOUT)
    && (Present(o.messageId) ==> rec.messageId == o.messageId.value)
    && (!Present(o.messageId) ==> rec.messageId == generated)
  }

  /** `r` is `regs` followed by one record made from each of `ls`, in order. */
  predicate AppendsRecords(r: seq<Registration>, regs: seq<Registration>, ls: seq<Options>, gen: nat -> string)
  {
    && |r| == |regs| + |ls|
    && r[..|regs|] == regs
    && forall i :: 0 <= i < |ls| ==> MadeFrom(r[|regs| + i], ls[i], gen(|regs| + i))
  }

  /** What `register` promises: every options object it is given, however the
      arrays nest, appends exactly one record, in order; an array pushes no
      record of its own and nothing already registered changes. A `null` or
      `undefined` leaf throws, after the records of the leaves before it have
      been pushed and before any after it. */
  lemma {:induction false} RegisterAppendsRecords(regs: seq<Registration>, arg: Arg, gen: nat -> string)
    ensures AppendsRecords(Register(regs, arg, gen).regs, regs, Before(Leaves(arg)), gen)
    ensures Register(regs, arg, gen).threw <==> None in Leaves(arg)
    decreases arg, 1
  {
    match arg
    case Single(o) =>
      assert Before(Leaves(arg)) == [o] + Before([]);
    case Nothing =>
    case Batch(items) => RegisterEachAppendsRecords(regs, items, gen);
  }

  lemma {:induction false} RegisterEachAppendsRecords(regs: seq<Registration>, items: seq<Arg>, gen: nat -> string)
    ensures AppendsRecords(RegisterEach(regs, items, gen).regs, regs, Before(LeavesEach(items)), gen)
    ensures RegisterEach(regs, items, gen).threw <==> None in LeavesEach(items)
    decreases items, 0
  {
    if items != [] {
      var first := Register(regs, items[0], gen);
      RegisterAppendsRecords(regs, items[0], gen);
      var a := Leaves(items[0]);
      var b := LeavesEach(items[1..]);
      assert LeavesEach(items) == a + b;
      BeforeAppend(a, b);
      if !first.threw {
        var mid := first.regs;
        RegisterEachAppendsRecords(mid, items[1..], gen);
        var r := RegisterEach(regs, items, gen).regs;
        var x := Before(a);
        var y := Before(b);
        assert r[..|regs|] == r[..|mid|][..|regs|];
        forall i | 0 <= i < |x + y|
          ensures MadeFrom(r[|regs| + i], (x + y)[i], gen(|regs| + i))
        {
          if i < |x| {
            assert r[|regs| + i] == r[..|mid|][|regs| + i] == mid[|regs| + i];
          } else {
            assert (x + y)[i] == y[i - |x|];
            assert r[|regs| + i] == r[|mid| + (i - |x|)];
          }
        }
      }
    }
  }

  /** Every record's message id is truthy, provided the generator never
      returns the empty string (`generateRandomId` returns 1 to 9 digits). */
  lemma MessageIdsTruthy(regs: seq<Registration>, arg: Arg, gen: nat -> string)
    requires forall i :: 0 <= i < |regs| ==> regs[i].messageId != ""
    requires forall k :: gen(k) != ""
    ensures forall i :: 0 <= i < |Register(regs, arg, gen).regs| ==> Register(regs, arg, gen).regs[i].messageId != ""
  {
    RegisterAppendsRecords(regs, arg, gen);
    var r := Register(regs, arg, gen).regs;
    forall i | 0 <= i < |r| ensures r[i].messageId != "" {
      if i < |regs| { assert r[i] == r[..|regs|][i]; }
      else {
        var j := i - |regs|;
        assert MadeFrom(r[|regs| + j], Before(Leaves(arg))[j], gen(|regs| + j));
      }
    }
  }
}

=== FILE: responder.dfy ===
/** The other end of the handshake: a page loaded in registration mode
    answers the host's request with its Babel scripts
    (`registrationModeOnMessage`, bbh.js:354-390). */
module Responder {
  import opened Js
  import opened Scripts
  import opened Handshake
  import opened Registrations
  import Seqs

  /** A message as the page in registration mode sees it: `event.data.id`
      (`None` when it is not a string) and `event.origin`, or a message whose
      `data` is `null` or `undefined`, so that reading `event.data.id` throws. */
  datatype Request = Request(id: Option<string>, origin: string) | NoData

  /** The object posted back to `event.source`: `{ id, scripts }` or `{ id, error }`. */
  datatype Reply = Reply(id: string, scripts: Option<seq<Descriptor>>, error: Option<string>)

  /** The page in registration mode: its origin, whether it accepts
      cross-origin requests, whether registration mode is still on, and its
      script elements in document order. */
  datatype Child = Child(origin: string, allowCrossOrigin: bool, registrationMode: bool, page: seq<Element>)

  /** `scripts.map(serializeScript)`. */
  function SerializeAll(els: seq<Element>): (ds: seq<Descriptor>)
    ensures |ds| == |els|
    ensures forall i :: 0 <= i < |els| ==> ds[i] == Serialize(els[i])
  {
    if els == [] then [] else [Serialize(els[0])] + SerializeAll(els[1..])
  }

  /** `document.querySelectorAll('script[type="text/babel"]')`. */
  function BabelScripts(page: seq<Element>): seq<Element>
  {
    Seqs.Filter(page, IsBabel)
  }

  predicate TrustsRequest(child: Child, req: Request)
  {
    req.Request? && (req.origin == child.origin || child.allowCrossOrigin)
  }

  /** The reply to one request, if any. */
  function Respond(child: Child, req: Request): (r: Option<Reply>)
    ensures r.Some? <==> child.registrationMode && req.Request? && Present(req.id)
    ensures r.Some? ==> r.value.id == req.id.value
    ensures r.Some? ==> (r.value.scripts.Some? <==> r.value.error.None?)
    ensures r.Some? && TrustsRequest(child, req) ==>
              r.value.scripts == Some(SerializeAll(BabelScripts(child.page)))
    ensures r.Some? && !TrustsRequest(child, req) ==>
              r.value.error == Some(CROSS_ORIGIN_REGISTRATION_ERROR)
  {
    if child.registrationMode && req.Request? && Present(req.id) then
      if TrustsRequest(child, req) then
        Some(Reply(req.id.value, Some(SerializeAll(BabelScripts(child.page))), None))
      else
        Some(Reply(req.id.value, None, Some(CROSS_ORIGIN_REGISTRATION_ERROR)))
    else None
  }

  /** The position of the first request with `data`, or `|reqs|`. */
  function FirstWithData(reqs: seq<Request>): (n: nat)
    ensures n <= |reqs|
    ensures n < |reqs| ==> reqs[n].Request?
    ensures forall i :: 0 <= i < n ==> reqs[i].NoData?
  {
    if reqs == [] || reqs[0].Request? then 0
    else
      var n := FirstWithData(reqs[1..]);
      assert forall i :: 1 <= i < n + 1 ==> reqs[i] == reqs[1..][i - 1];
      n + 1
  }

  /** The listener removes itself after the first message with `data`,
      answered or not; a message without `data` throws before the removal
      and leaves it listening. So a sequence of requests gets at most one
      reply, to the first request with `data`. */
  function Serve(child: Child, reqs: seq<Request>): (replies: seq<Reply>)
    ensures |replies| <= 1
    ensures var n := FirstWithData(reqs);
            |replies| == 1 <==> n < |reqs| && child.registrationMode && Present(reqs[n].id)
    ensures var n := FirstWithData(reqs);
            replies != [] ==> replies == [Respond(child, reqs[n]).value] && replies[0].id == reqs[n].id.value
  {
    if reqs == [] then []
    else if reqs[0].NoData? then
      assert FirstWithData(reqs) == FirstWithData(reqs[1..]) + 1;
      Serve(child, reqs[1..])
    else
      var r := Respond(child, reqs[0]);
      if r.Some? then [r.value] else []
  }

  /** The reply as the host's `message` event sees it, sent from `origin`. */
  function Deliver(reply: Reply, origin: string): Message
  {
    Message(
      Some(reply.id),
      reply.error,
      if reply.scripts.Some? then ArrayOf(seq(|reply.scripts.value|, i requires 0 <= i < |reply.scripts.value| => Sent(reply.scripts.value[i])))
      else NotAnArray,
      origin)
  }

  /** The whole handshake between a host registration and a page in
      registration mode: the iframe loads, the host posts its message id, the
      page answers and the host receives the answer. When each side trusts
      the other's origin the registration resolves to one Babel script per
      Babel script of the page, in order, each the round trip of the
      original; otherwise it rejects with the cross-origin error, whichever
      side refused. */
  lemma HandshakeEndToEnd(reg: Registration, ctx: Context, child: Child)
    requires reg.messageId != "" && child.registrationMode
    ensures Run([IframeLoad], reg, ctx).posted == [reg.messageId]
    ensures var reply := Respond(child, Request(Some(reg.messageId), ctx.hostOrigin));
            reply.Some? &&
            var out := Run([IframeLoad, Inbound(Deliver(reply.value, child.origin))], reg, ctx).outcome;
            var babel := BabelScripts(child.page);
            var trusted := (ctx.hostOrigin == child.origin || child.allowCrossOrigin) &&
                           (child.origin == ctx.hostOrigin || ctx.allowCrossOrigin);
            && (trusted ==>
                  && out.Fulfilled?
                  && |out.scripts| == |babel|
                  && forall i :: 0 <= i < |babel| ==>
                       out.scripts[i] == Deserialize(Serialize(babel[i]), reg.src, ctx.removeModuleScripts))
            && (!trusted ==> out == Rejected(CrossOriginError(reg)))
  {
    var reply := Respond(child, Request(Some(reg.messageId), ctx.hostOrigin)).value;
    var msg := Deliver(reply, child.origin);
    LoadThenAnswer(msg, reg, ctx);
    if reply.scripts.Some? {
      var ws := seq(|reply.scripts.value|, i requires 0 <= i < |reply.scripts.value| => Sent(reply.scripts.value[i]));
      assert msg.scripts == ArrayOf(ws);
      assert forall i :: 0 <= i < |ws| ==> ws[i].Sent?;
    }
  }
}

=== FILE: scripts.dfy ===
/** Script elements and the descriptors that carry them between windows:
    `serializeScript` (bbh.js:374-388), `deserializeScript` (bbh.js:333-349),
    the `data-name` of a loaded script (bbh.js:189-191) and the module names
    given to Babel scripts before they are transpiled (bbh.js:456, 473). */
module Scripts {
  import opened Js

  const BABEL_TYPE := "text/babel"
  const ANONYMOUS_PREFIX := "__bbh_"

  /** A `<script>` element, reduced to the attributes the harness reads or
      writes. Attributes are `None` when absent; `text` is `textContent`. */
  datatype Element = Element(
    typeAttr: Option<string>,
    name: Option<string>,
    src: Option<string>,
    text: string,
    dataName: Option<string>,
    dataSrc: Option<string>,
    dataRemove: bool)

  /** The plain object one script travels as: `{ name?, src?, textContent? }`. */
  datatype Descriptor = Descriptor(name: Option<string>, src: Option<string>, textContent: Option<string>)

  /** An entry of an inbound `scripts` array: an object, or `null`/`undefined`. */
  datatype Wire = Missing | Sent(descriptor: Descriptor)

  /** `script[type="text/babel"]` matches this element. */
  predicate IsBabel(el: Element)
  {
    el.typeAttr == Some(BABEL_TYPE)
  }

  /** The descriptors `serializeScript` can produce: a non-empty name or none,
      and exactly one of a non-empty `src` and a `textContent`. */
  predicate Canonical(d: Descriptor)
  {
    && (d.name.None? || d.name.value != "")
    && (d.src.Some? ==> d.src.value != "" && d.textContent.None?)
    && (d.src.None? ==> d.textContent.Some?)
  }

  /** `serializeScript`, run by a window in registration mode. */
  function Serialize(el: Element): (d: Descriptor)
    ensures Canonical(d)
    ensures d.src.Some? != d.textContent.Some?
    ensures Present(el.name) ==> d.name == el.name
    ensures Present(el.src) ==> d.src == el.src
    ensures !Present(el.src) ==> d.textContent == Some(el.text)
  {
    Descriptor(
      if Present(el.name) then el.name else None,
      if Present(el.src) then el.src else None,
      if Present(el.src) then None else Some(el.text))
  }

  /** `deserializeScript` in the host window, for the registration whose `src`
      is `registrationSrc`; `remove` is `removeModuleScripts`. */
  function Deserialize(d: Descriptor, registrationSrc: Option<string>, remove: bool): (el: Element)
    ensures IsBabel(el)
    ensures el.dataSrc == Some(Show(registrationSrc)) && el.dataRemove == remove
    ensures el.dataName.None?
    ensures Present(d.name) ==> el.name == d.name
    ensures Present(d.src) ==> el.src == d.src && el.text == ""
    ensures !Present(d.src) && d.textContent.Some? ==> el.src.None? && el.text == d.textContent.value
    ensures !Present(d.name) ==> el.name.None?
    ensures !Present(d.src) ==> el.src.None?
    ensures !Present(d.src) && d.textContent.None? ==> el.text == ""
  {
    Element(
      Some(BABEL_TYPE),
      if Present(d.name) then d.name else None,
      if Present(d.src) then d.src else None,
      if !Present(d.src) && Present(d.textContent) then d.textContent.value else "",
      None,
      Some(Show(registrationSrc)),
      remove)
  }

  /** A descriptor survives a trip through the host window and back exactly
      when it is one `serializeScript` could have produced. */
  lemma DescriptorRoundTrip(d: Descriptor, registrationSrc: Option<string>, remove: bool)
    ensures Serialize(Deserialize(d, registrationSrc, remove)) == d <==> Canonical(d)
  {
    if Canonical(d) {
      var el := Deserialize(d, registrationSrc, remove);
      if d.src.None? {
        assert el.text == d.textContent.value;
      }
    }
  }

  /** Name, src and text of a script survive serialisation followed by
      deserialisation whenever they are non-empty (text only matters when
      there is no src), and the copy is a Babel script marked with the
      registration it came from. */
  lemma ElementRoundTrip(el: Element, registrationSrc: Option<string>, remove: bool)
    ensures var copy := Deserialize(Serialize(el), registrationSrc, remove);
            && (Present(el.name) ==> copy.name == el.name)
            && (!Present(el.name) ==> copy.name.None?)
            && (Present(el.src) ==> copy.src == el.src && copy.text == "")
            && (!Present(el.src) ==> copy.src.None? && copy.text == el.text)
            && IsBabel(copy) && copy.dataSrc == Some(Show(registrationSrc))
  {
  }

  /** `url.substr((url.lastIndexOf('/') || -1) + 1)`: the part after the last
      slash, except that a slash found only at position 0 counts as none. */
  function DataName(url: string): (r: string)
    ensures |r| <= |url| && r == url[|url| - |r|..]
    ensures (exists i :: 0 < i < |url| && url[i] == '/') ==>
              |r| < |url| && url[|url| - |r| - 1] == '/' &&
              forall j :: 0 <= j < |r| ==> r[j] != '/'
    ensures (forall i :: 0 < i < |url| ==> url[i] != '/') ==> r == url
  {
    var k := LastIndexOf(url, '/');
    var start := (if k != 0 then k else -1) + 1;
    assert forall j :: 0 <= j < |url| - start ==> url[start..][j] == url[start + j];
    url[start..]
  }

  /** `!name && !src`: the script gets a generated name. */
  predicate Anonymous(el: Element)
  {
    !Present(el.name) && !Present(el.src)
  }

  /** How many of `els` are anonymous. */
  function CountAnonymous(els: seq<Element>): nat
  {
    if els == [] then 0
    else CountAnonymous(els[..|els| - 1]) + (if Anonymous(els[|els| - 1]) then 1 else 0)
  }

  lemma {:induction false} CountAnonymousGrows(els: seq<Element>, i: nat, j: nat)
    requires i < j <= |els| && Anonymous(els[i])
    ensures CountAnonymous(els[..i]) < CountAnonymous(els[..j])
    decreases j
  {
    assert els[..j][..j - 1] == els[..j - 1];
    if j - 1 > i {
      CountAnonymousGrows(els, i, j - 1);
    } else {
      assert els[..j][j - 1] == els[i];
    }
  }

  /** `"__bbh_" + k`. */
  function GeneratedName(k: nat): string
  {
    ANONYMOUS_PREFIX + Decimal(k)
  }

  /** Distinct counter values give distinct generated names. */
  lemma GeneratedNamesDistinct(a: nat, b: nat)
    ensures a != b ==> GeneratedName(a) != GeneratedName(b)
  {
    if GeneratedName(a) == GeneratedName(b) {
      assert GeneratedName(a)[|ANONYMOUS_PREFIX|..] == Decimal(a);
      assert GeneratedName(b)[|ANONYMOUS_PREFIX|..] == Decimal(b);
      DecimalInjective(a, b);
    }
  }

  /** `name` is the module name `extractWithName` gives `el` when `before`
      anonymous scripts precede it: the `name` attribute, else the `src`
      attribute, else `__bbh_<before + 1>`. */
  predicate NamedAt(el: Element, name: string, before: nat)
  {
    if Present(el.name) then name == el.name.value
    else if Present(el.src) then name == el.src.value
    else name == GeneratedName(before + 1)
  }

  /** Two anonymous scripts get different names. */
  lemma AnonymousNamesDistinct(els: seq<Element>, names: seq<string>, i: nat, j: nat)
    requires |names| == |els| && i < j < |els| && Anonymous(els[i]) && Anonymous(els[j])
    requires NamedAt(els[i], names[i], CountAnonymous(els[..i]))
    requires NamedAt(els[j], names[j], CountAnonymous(els[..j]))
    ensures names[i] != names[j]
  {
    CountAnonymousGrows(els, i, j);
    GeneratedNamesDistinct(CountAnonymous(els[..i]) + 1, CountAnonymous(els[..j]) + 1);
  }

  lemma NamedExtend(els: seq<Element>, names: seq<string>, name: string)
    requires |names| < |els|
    requires forall k :: 0 <= k < |names| ==> NamedAt(els[k], names[k], CountAnonymous(els[..k]))
    requires NamedAt(els[|names|], name, CountAnonymous(els[..|names|]))
    ensures forall k :: 0 <= k < |names| + 1 ==>
              NamedAt(els[k], (names + [name])[k], CountAnonymous(els[..k]))
  {
    forall k | 0 <= k < |names| + 1
      ensures NamedAt(els[k], (names + [name])[k], CountAnonymous(els[..k]))
    {
      if k < |names| {
        assert (names + [name])[k] == names[k];
      }
    }
  }

  /** The module names `extractWithName` gives the Babel scripts, in document
      order: the `name` attribute, else the `src` attribute, else `__bbh_<k>`
      where the counter `k` advances only for anonymous scripts. */
  method ModuleNames(els: seq<Element>) returns (names: seq<string>)
    ensures |names| == |els|
    ensures forall i :: 0 <= i < |els| && Present(els[i].name) ==> names[i] == els[i].name.value
    ensures forall i :: 0 <= i < |els| && !Present(els[i].name) && Present(els[i].src) ==>
              names[i] == els[i].src.value
    ensures forall i :: 0 <= i < |els| && Anonymous(els[i]) ==>
              names[i] == GeneratedName(CountAnonymous(els[..i]) + 1)
    ensures forall i, j :: 0 <= i < j < |els| && Anonymous(els[i]) && Anonymous(els[j]) ==>
              names[i] != names[j]
  {
    names := [];
    var moduleIndex: nat := 0;
    var i := 0;
    while i < |els|
      invariant 0 <= i <= |els|
      invariant |names| == i
      invariant moduleIndex == CountAnonymous(els[..i])
      invariant forall k :: 0 <= k < i ==> NamedAt(els[k], names[k], CountAnonymous(els[..k]))
    {
      ghost var before := CountAnonymous(els[..i]);
      var name;
      if Present(els[i].name) {
        name := els[i].name.value;
      } else if Present(els[i].src) {
        name := els[i].src.value;
      } else {
        moduleIndex := moduleIndex + 1;
        name := GeneratedName(moduleIndex);
      }
      assert NamedAt(els[i], name, before);
      assert els[..i + 1][..i] == els[..i];
      assert moduleIndex == CountAnonymous(els[..i + 1]);
      NamedExtend(els, names, name);
      names := names + [name];
      i := i + 1;
    }
    forall i, j | 0 <= i < j < |els| && Anonymous(els[i]) && Anonymous(els[j])
      ensures names[i] != names[j]
    {
      AnonymousNamesDistinct(els, names, i, j);
    }
  }
}

=== FILE: seqs.dfy ===
/** Order-preserving selection over sequences, the one list operation the
    harness uses everywhere (`Array.prototype.filter`). */
module Seqs {

  /** `a` can be obtained from `b` by deleting elements, keeping the order. */
  predicate IsSubsequence<T(==)>(a: seq<T>, b: seq<T>)
    decreases |b|
  {
    if a == [] then true
    else if b == [] then false
    else if a[0] == b[0] then IsSubsequence(a[1..], b[1..])
    else IsSubsequence(a, b[1..])
  }

  /** The elements of `s` satisfying `p`, in their original order. */
  function Filter<T(==)>(s: seq<T>, p: T -> bool): (r: seq<T>)
    ensures |r| <= |s|
    ensures forall i :: 0 <= i < |r| ==> r[i] in s && p(r[i])
    ensures forall i :: 0 <= i < |s| && p(s[i]) ==> s[i] in r
    ensures IsSubsequence(r, s)
  {
    if s == [] then []
    else if p(s[0]) then [s[0]] + Filter(s[1..], p)
    else Filter(s[1..], p)
  }

  /** Filtering distributes over concatenation. */
  lemma {:induction false} FilterAppend<T>(a: seq<T>, b: seq<T>, p: T -> bool)
    ensures Filter(a + b, p) == Filter(a, p) + Filter(b, p)
  {
    if a == [] {
      assert a + b == b;
    } else {
      assert (a + b)[0] == a[0];
      assert (a + b)[1..] == a[1..] + b;
      FilterAppend(a[1..], b, p);
    }
  }

  /** The first element `Filter` keeps is the first element of `s` that
      satisfies `p`. */
  lemma {:induction false} FilterHead<T>(s: seq<T>, p: T -> bool)
    requires Filter(s, p) != []
    ensures exists i :: 0 <= i < |s| && s[i] == Filter(s, p)[0] && p(s[i]) &&
                        forall j :: 0 <= j < i ==> !p(s[j])
  {
    if p(s[0]) {
      assert Filter(s, p)[0] == s[0];
    } else {
      var t := s[1..];
      assert Filter(s, p) == Filter(t, p);
      FilterHead(t, p);
      var i :| 0 <= i < |t| && t[i] == Filter(t, p)[0] && p(t[i]) && forall j :: 0 <= j < i ==> !p(t[j]);
      assert s[i + 1] == t[i];
      assert forall j :: 1 <= j < i + 1 ==> s[j] == t[j - 1];
    }
  }
}

=== FILE: settings.dfy ===
/** The harness's two switches: registration mode, read from the `#registration`
    hash of the script's own `src` (bbh.js:149-163) or set by
    `bbh.registrationMode(bool)`, and cross-origin acceptance, set by
    `bbh.allowCrossOriginRegistration(bool)` (bbh.js:516-517). */
module Settings {
  import opened Js

  const REGISTRATION_HASH := "#registration"

  /** `isRegistrationMode` and `allowCrossOriginRegistration`. */
  datatype Switches = Switches(registrationMode: bool, allowCrossOrigin: bool)

  /** `loadRegistrationModeFromUrlHash`: `src` is the `src` attribute of
      `document.currentScript` (`None` when there is no current script or no
      attribute). The mode is on exactly when the text after the first `#`
      is `registration`, so the attribute ends in `#registration` and holds
      no earlier `#`. */
  function RegistrationModeFromSrc(src: Option<string>): (r: bool)
    ensures r <==> src.Some? && EndsWithOnlyHash(src.value)
  {
    if !Present(src) then false
    else
      var s := src.value;
      var hashIndex := IndexOf(s, '#');
      HashPositionIfEnds(s);
      if hashIndex == -1 then false
      else if s[hashIndex + 1..] == "registration" then
        HashSuffix(s, hashIndex);
        true
      else false
  }

  /** `s` ends in `#registration` and holds no earlier `#`. */
  predicate EndsWithOnlyHash(s: string)
  {
    && |s| >= |REGISTRATION_HASH|
    && s[|s| - |REGISTRATION_HASH|..] == REGISTRATION_HASH
    && forall j :: 0 <= j < |s| - |REGISTRATION_HASH| ==> s[j] != '#'
  }

  lemma HashPositionIfEnds(s: string)
    ensures EndsWithOnlyHash(s) ==>
              IndexOf(s, '#') == |s| - |REGISTRATION_HASH| && s[|s| - |REGISTRATION_HASH| + 1..] == "registration"
  {
    if EndsWithOnlyHash(s) {
      HashPosition(s);
    }
  }

  lemma HashSuffix(s: string, k: nat)
    requires k < |s| && s[k] == '#' && s[k + 1..] == "registration"
    requires forall j :: 0 <= j < k ==> s[j] != '#'
    ensures EndsWithOnlyHash(s)
  {
    assert s[k..] == [s[k]] + s[k + 1..];
  }

  lemma HashPosition(s: string)
    requires EndsWithOnlyHash(s)
    ensures IndexOf(s, '#') == |s| - |REGISTRATION_HASH|
    ensures s[|s| - |REGISTRATION_HASH| + 1..] == "registration"
  {
    var n := |s| - |REGISTRATION_HASH|;
    assert s[n] == s[n..][0] == '#';
    assert s[n + 1..] == s[n..][1..];
  }

  /** The switches when the harness starts: cross-origin registration is
      refused, and registration mode is on only through the script's hash. */
  function Initial(src: Option<string>): (w: Switches)
    ensures !w.allowCrossOrigin
    ensures w.registrationMode <==> src.Some? && EndsWithOnlyHash(src.value)
  {
    Switches(RegistrationModeFromSrc(src), false)
  }

  /** `bool !== false`: only the boolean `false` itself switches off. */
  predicate SetterFlag(v: Value)
  {
    v != Boolean(false)
  }

  /** `bbh.registrationMode(bool)`. */
  function SetRegistrationMode(w: Switches, v: Value): (w': Switches)
    ensures w'.allowCrossOrigin == w.allowCrossOrigin
    ensures !w'.registrationMode <==> v == Boolean(false)
  {
    w.(registrationMode := SetterFlag(v))
  }

  /** `bbh.allowCrossOriginRegistration(bool)`. */
  function SetAllowCrossOrigin(w: Switches, v: Value): (w': Switches)
    ensures w'.registrationMode == w.registrationMode
    ensures !w'.allowCrossOrigin <==> v == Boolean(false)
  {
    w.(allowCrossOrigin := SetterFlag(v))
  }

  /** The setters are not truthiness tests: every truthy argument switches on,
      and so do the falsy ones other than `false` (`undefined`, so a call with
      no argument, `null`, `0` and the empty string). */
  lemma SetterIgnoresTruthiness(w: Switches, v: Value)
    ensures Truthy(v) ==> SetRegistrationMode(w, v).registrationMode
    ensures Truthy(v) ==> SetAllowCrossOrigin(w, v).allowCrossOrigin
    ensures !Truthy(v) && v != Boolean(false) ==>
              SetRegistrationMode(w, v).registrationMode && SetAllowCrossOrigin(w, v).allowCrossOrigin
  {
  }
}
